=== FILE: README.md ===
# Durable links: a Dafny model of the link service

This project models the core of the durable-links generator, the Go service in
`api/service/link_service.go`. The service turns a structured link description into
a canonical query string and stores it under a short path. A SHORT request reuses a
stored path for the same host and query. Any other request mints a fresh unguessable
path. The service also parses a long durable link back into a description, validates
incoming creation bodies, and resolves a requested short or preview link into the long
link stored behind it.

Modules, in dependency order:

- `Wrappers` (`wrappers.dfy`): `Option` and `Result`.
- `Strings` (`strings.dfy`): the Go `strings` functions the service calls. It also holds the byte order `url.Values.Encode` sorts keys by.
- `Query` (`query.dfy`): `url.Values` as a list of pairs, with `Get`, the stable sort by key, and `Encode`.
- `Models` (`models.dfy`): the request, response and configuration records.
- `Collaborators` (`collaborators.dfy`): the helpers whose code is not part of this model, as uninterpreted functions, plus the random path generator driven by a seed.
- `Store` (`store.dfy`): the link repository as a map from (host, path) to (query string, unguessable flag).
- `LinkService` (`link_service.dfy`): the seven operations of the service.
- `LinkProperties` (`properties.dfy`): lemmas that relate several operations.

Every operation is a pure function. A creation returns a pair: its result, and the repository after the call.

Five behaviours of the code that are easy to get wrong:

- The reconstructed long link carries the *normalised* host. Resolution passes the host with its preview marker removed to the lookup (line 377), and the lookup formats the link with the host it was given (line 49).
- Creation stores a link under the cleaned host as given (line 71), while resolution looks it up under the host with its preview marker removed (line 370). A link created under a `preview.` host is therefore never found under that host: resolution looks under the production host instead (`LinkProperties.PreviewHostRecordUnreachable`).
- A requested path that is empty, or made only of slashes, is not rejected. It is looked up as the empty path (`LinkProperties.EmptyPathLookedUp`).
- A path collision on insert is not retried. It fails the creation with "failed to store link" (lines 336-338).
- When both `isi` and `pt` are empty, `at` draws two warnings. When `pt` is set but `isi` is not, `at` draws one warning and `pt` draws one (`LinkProperties.AtWarnedTwice`, `LinkProperties.AtWarnedOnceWhenPtSet`).

## Model

| member | source | states |
|---|---|---|
| Strings.TrimPrefix | api/service/link_service.go:381-382 | with the prefix present, prefix followed by the result is the input; without it the input is returned unchanged |
| Strings.TrimSuffix | api/service/link_service.go:385-386 | with the suffix present, the result followed by the suffix is the input; without it the input is returned unchanged |
| Strings.IndexOf | api/service/link_service.go:384 | absent exactly when the character does not occur; otherwise the position of its first occurrence |
| Strings.SplitFirst | api/service/link_service.go:384 | one part exactly when there is no separator (then it is the input); otherwise two parts that rejoin around the separator to the input, the first part free of separators |
| Strings.SplitFirstAt | api/service/link_service.go:384 | splitting `a + "." + b` where `a` has no dot gives exactly `[a, b]` |
| Strings.Split | api/service/link_service.go:372 | at least one part; a single part exactly when the separator does not occur; every part is separator-free; joining the parts with the separator gives back the input |
| Strings.TrimLeft | api/service/link_service.go:372 | the result is a suffix of the input, everything dropped is the trim character, and the result does not start with it |
| Strings.TrimRight | api/service/link_service.go:372 | the result is a prefix of the input, everything dropped is the trim character, and the result does not end with it |
| Strings.Trim | api/service/link_service.go:372 | the result is the slice of the input between a leading and a trailing run of the trim character, and it neither starts nor ends with that character |
| Strings.TrimWrapped | api/service/link_service.go:372 | trimming a text that neither starts nor ends with the character, wrapped in runs of it, gives the text back |
| Strings.LexLeqTotal | api/service/link_service.go:312 | any two keys are ordered one way or the other by the byte order the encoder sorts by |
| Strings.LexLeqAntisymmetric | api/service/link_service.go:312 | two keys ordered both ways are equal |
| Strings.LexLeqTransitive | api/service/link_service.go:312 | the sort order is transitive |
| Query.Get | api/service/link_service.go:219 | the answer is the value of the first pair with the key; a key with no pair gives the empty string; a non-empty answer is a pair stored under the key |
| Query.GetFunctional | api/service/link_service.go:219 | when no key carries two different values, `Get` returns the value stored under the key |
| Query.GetPermutation | api/service/link_service.go:217-219 | reordering single-valued pairs changes no `Get` |
| Query.Insert | api/service/link_service.go:312 | inserting into a key-sorted list keeps it sorted and adds exactly the one pair |
| Query.SortByKey | api/service/link_service.go:312 | the result is sorted by key and is a permutation of the input |
| Query.SortedUnique | api/service/link_service.go:312 | two key-sorted permutations of the same single-valued pairs are identical |
| Query.EncodeCanonical | api/service/link_service.go:312 | when no key carries two different values, the encoded query string depends only on which pairs are present, not on the order they were added in |
| Query.GetSorted | api/service/link_service.go:217-219 | when no key carries two different values, reading a parameter from the encoded, sorted order gives what was added |
| Collaborators.AlphanumericAt | api/service/link_service.go:334 | each of the 62 alphabet positions names a letter or digit |
| Collaborators.RandomToken | api/service/link_service.go:334 | assumed, since the generator's code is not part of this model: a generated path has exactly the requested length and only the letters a-z, A-Z and the digits 0-9 |
| Collaborators.AlphanumericHasNoSlash | api/service/link_service.go:334 | an alphanumeric path, such as a generated one, never contains a path separator |
| Store.Lookup | api/service/link_service.go:44-47 | succeeds exactly when the database is up and (host, path) is stored, with the stored query; a missing key gives NotFound |
| Store.Put | api/service/link_service.go:336-338 | succeeds exactly when the database is up and (host, path) is free, and then adds just that record |
| LinkService.FieldOfKey | api/service/link_service.go:103-135 | a key that names a field is that field's query key |
| LinkService.KeyTableInverse | api/service/link_service.go:103-135 | every field has its own key: reading a field's key back gives the field |
| LinkService.ReservedKeys | api/service/link_service.go:295 | `link` and `path` are not field keys |
| LinkService.CreationOrderComplete | api/service/link_service.go:103-187 | creation offers every field of the key table to the query |
| LinkService.CreationOrderIndexed | api/service/link_service.go:103-187 | each field of the creation order sits at its own position |
| LinkService.CreationOrderNoRepeats | api/service/link_service.go:103-187 | creation offers no field twice |
| LinkService.AddParams | api/service/link_service.go:97-101 | one pair per field with a non-empty value, under that field's key, and nothing else; for fields listed once, no key is added twice |
| LinkService.BuildQuery | api/service/link_service.go:94-187 | `link` comes first, always; a field's pair is present exactly when its value is non-empty; every later pair is a non-empty field pair; no key is added twice |
| LinkService.BuildQueryGet | api/service/link_service.go:94-187 | `Get` on the creation query reads back the link and every field, and finds no `path` |
| LinkService.MalformedInOrder | api/service/link_service.go:120-127 | the image-link check raises exactly the MALFORMED_PARAM warning when it fires |
| LinkService.MissingIsiInOrder | api/service/link_service.go:137-162 | the `isi` checks raise exactly their firing warnings, in the order at, ct, mt, pt |
| LinkService.MissingPtInOrder | api/service/link_service.go:164-183 | the `pt` checks raise exactly their firing warnings, in the order at, ct, mt |
| LinkService.CreationWarningCauses | api/service/link_service.go:116-183 | the warnings are exactly those whose condition holds, each once, in the fixed check order |
| LinkService.Render | api/service/link_service.go:122-181 | the code is MALFORMED_PARAM exactly for the image-link warning, whose message is `Param 'si' is not a valid URL`, and UNRECOGNIZED_PARAM exactly for a dependency warning |
| LinkService.NotNeededMessageShape | api/service/link_service.go:140-180 | a dependency warning's message is `Param '<key>' is not needed, since '<missing key>' is not specified.` with each key closed by a quote |
| LinkService.RenderInjective | api/service/link_service.go:122-181 | different causes give different warnings, so each warning names its field and the field it depends on |
| LinkService.CreationWarnings | api/service/link_service.go:116-183 | one warning per firing check, in check order, each the rendering of its cause |
| LinkService.CreateOrGetShortLink | api/service/link_service.go:306-347 | a SHORT request with a stored match reuses it and leaves the store alone; a failing lookup is passed through; otherwise a path is minted, and the creation succeeds exactly when the database is up and the minted (host, path) is free (always so when the host has no record yet), adding exactly one record under an alphanumeric path of the configured length; a minting failure is the store error (database fault or duplicate path); a failure leaves the store unchanged |
| LinkService.CreateDurableLink | api/service/link_service.go:64-197 | validation errors in order (host, then allow-list, then store id) with no store change; a valid request ends exactly as the allocation under the cleaned host does, with the creation warnings added on success; a SHORT request with a stored match reuses it; with the database up and no record for the host a valid request succeeds; the short link names a record holding the encoded query, unguessable unless SHORT |
| LinkService.RequestFromQuery | api/service/link_service.go:215-297 | the host is the parsed host; the link and the suffix option are read from `link` and `path`; every field of the key table is the value under that field's own key, or the configured default when that value is empty |
| LinkService.ParseLongDurableLink | api/service/link_service.go:199-304 | succeeds exactly when the URL parses with a non-empty host; an unparsable URL and a URL without a host are rejected with their own errors; otherwise every field is its query value or its default |
| LinkService.PrepareDurableLinkRequest | api/service/link_service.go:393-423 | succeeds exactly when the body decodes to a request with a host, a link and an accepted link scheme, and then returns that request; decode errors pass through; otherwise the missing host, the missing link and the rejected scheme are reported in that order |
| LinkService.RemovePreviewFromHost | api/service/link_service.go:380-391 | a `preview.` host loses exactly that prefix; otherwise the host is unchanged or exactly eight characters shorter |
| LinkService.LongLinkFromHostAndPath | api/service/link_service.go:39-62 | succeeds exactly when (host, path) is stored, with the stored query appended; a repository error is passed through |
| LinkService.ResolveParsed | api/service/link_service.go:370-377 | a trimmed path with a slash is rejected; otherwise the long link is looked up under the normalised host; success exactly when that key is stored |
| LinkService.ResolveShortPath | api/service/link_service.go:364-378 | succeeds exactly when the requested link parses, its trimmed path is one segment, the database is up and (normalised host, trimmed path) is stored, and then gives that link rebuilt under the normalised host with the stored query; an unparsable link, a multi-segment path, a database fault and a missing record each give their own error |
| LinkProperties.WithDefaults | api/service/link_service.go:225-245 | filling defaults never changes a field that was already set |
| LinkProperties.QueryRoundTrip | api/service/link_service.go:215-297 | reading a description back from its creation query, in encoded order, gives the description with defaults filled into empty `apn`/`isi`, and no suffix option |
| LinkProperties.ParseInvertsBuild | api/service/link_service.go:199-304 | for a description with a host, parsing a long link that the URL parser reads as that host with the sorted creation query gives back the description, with defaults filled into empty `apn`/`isi`, and no suffix |
| LinkProperties.ParseInvertsBuildExactly | api/service/link_service.go:199-304 | without configured defaults, and under the same hypotheses, that round trip is exact |
| LinkProperties.CreationEncodingCanonical | api/service/link_service.go:312 | any reordering of the creation query encodes to the same string |
| LinkProperties.ShortLinkReused | api/service/link_service.go:312-327 | after a successful SHORT creation, the next SHORT creation of the same host and query, when its reuse lookup answers a path or NotFound rather than a database error, succeeds without touching the store, and returns the same link if the first one minted it |
| LinkProperties.UnguessableLinksDistinct | api/service/link_service.go:330-338 | two successive successful unguessable creations of the same host and query give different links and two new records |
| LinkProperties.CreatePreservesAlphanumeric | api/service/link_service.go:334-336 | when every stored path is alphanumeric, creation keeps them so |
| LinkProperties.SingleSegmentLookedUp | api/service/link_service.go:370-377 | a requested path that is one slash-free segment after its leading `/` is looked up as that segment under the normalised host |
| LinkProperties.StoredPathResolves | api/service/link_service.go:364-378 | for a host without a preview marker, a URL parser that reads the short link back as that host and `/path`, and a non-empty stored query, a stored single-segment path resolves to its short link followed by `?` and the stored query |
| LinkProperties.CreatedLinkResolves | api/service/link_service.go:364-378 | for a cleaned host without a preview marker, when every stored path is alphanumeric, the short link a creation returns resolves, in the store it left, to that link followed by `?` and the encoded creation query, for a URL parser that reads back links with alphanumeric paths |
| LinkProperties.PreviewPrefixRemoved | api/service/link_service.go:381-383 | `preview.` + host normalises to the host, removing the prefix once |
| LinkProperties.PreviewLabelRemoved | api/service/link_service.go:384-388 | for a dot-free `app`, `app-preview.rest` normalises to `app.rest` |
| LinkProperties.MarkedLabelShape | api/service/link_service.go:384-386 | a host whose first label ends in `-preview` is `app-preview.rest` for a dot-free `app` |
| LinkProperties.UnmarkedUnchanged | api/service/link_service.go:380-390 | a host that neither starts with `preview.` nor has the form `app-preview.rest` with a dot-free `app` is unchanged |
| LinkProperties.ShortLabelUnchanged | api/service/link_service.go:384-390 | a host whose first label is shorter than `-preview`, and which does not start with `preview.`, is unchanged |
| LinkProperties.PreviewExamplesPrefix | api/service/link_service.go:380-383 | `preview.foo.com` gives `foo.com`; `preview.preview.foo.com` gives `preview.foo.com` |
| LinkProperties.PreviewExampleLabel | api/service/link_service.go:384-388 | `acme-preview.short.link` gives `acme.short.link` |
| LinkProperties.PreviewExampleUnmarked | api/service/link_service.go:390 | `foo.com` is unchanged |
| LinkProperties.PreviewHostRecordUnreachable | api/service/link_service.go:370-377 | a record stored under a `preview.` host is not found when its production host has no record for the path |
| LinkProperties.PreviewPrefixResolvesLikeProduction | api/service/link_service.go:370 | for a host without a preview marker, `preview.` + host resolves exactly as the host |
| LinkProperties.PreviewLabelResolvesLikeProduction | api/service/link_service.go:370 | for a dot-free `app` with `app.rest` unmarked, `app-preview.rest` resolves exactly as `app.rest` |
| LinkProperties.EmptyPathLookedUp | api/service/link_service.go:372-377 | a path of slashes only, or no path at all, is looked up as the empty path |
| LinkProperties.TwoSegmentsRejected | api/service/link_service.go:372-375 | a path with two non-empty segments is rejected with the path-format error |
| LinkProperties.AtWarnedTwice | api/service/link_service.go:137-183 | with `isi` and `pt` both empty, `ct` and `mt` empty and `si` empty or a URL, `at` draws exactly two warnings, one for each, with the service's messages |
| LinkProperties.AtWarnedOnceWhenPtSet | api/service/link_service.go:137-183 | with `pt` set and `isi` empty, `ct` and `mt` empty and `si` empty or a URL, the warnings are exactly one for `at` and one for `pt` |
| LinkProperties.PreparedRequestIsFixpoint | api/service/link_service.go:393-423 | a prepared request, sent again as a structured body, is accepted unchanged |

## Left out

- Logging (`zerolog` calls) and the `context.Context` argument: they do not affect results.
- `url.Parse`, `url.Values` decoding and `url.QueryEscape`: uninterpreted functions in `Collaborators.Externals`. The parsed URL is a host, a path and the decoded pairs in their written order.
- `utils.CleanHost`, `IsDomainAllowed`, `IsNumericString`, `IsURL` and `ValidateURLScheme`: uninterpreted functions, because the `utils` package is not part of this model.
- `utils.GenerateRandomAlphanumericString`: modelled as a deterministic function of a seed argument. The seed stands for the random source. Nothing is said about the distribution. Its exact length and its a-z, A-Z, 0-9 alphabet are assumptions, because the `utils` package is not part of this model; the properties that rely on them (`LinkProperties.CreatePreservesAlphanumeric`, `LinkProperties.CreatedLinkResolves`) hold only as far as the real generator keeps them.
- The SQL repository (`api/repository`) is not part of this model. It is a map plus an `outage` argument that stands for any database failure. `FindExistingShortLink` is an oracle. It may answer only what is sound for the stored records (`Store.FindSound`).
- Store.FindSound: assumes the reuse query answers only records minted for a SHORT request (unguessable flag false) with the same host and query string. The query itself is in `api/repository`, which is not part of this model, and the service passes only (host, query string). The reuse clauses of `LinkService.CreateOrGetShortLink` and `LinkService.CreateDurableLink`, which record a reused path as guessable, rest on this assumption.
- `findExistingShortLink`, `createShortLink` and `NewLinkService`: one-line forwarders or a constructor, folded into the oracle, `Store.Put` and the function arguments.
- JSON marshalling in `PrepareDurableLinkRequest`: the body arrives as its string `longDurableLink` entry plus the result of decoding it as a structured request (`None` for a decode failure).
- Concurrency: two creators racing for the same path. Only the losing side is visible, as `Store.Put` failing with a duplicate path.
- Config path lengths are `nat`: a negative `SHORT_PATH_LENGTH` or `UNGUESSABLE_PATH_LENGTH` is not modelled, because the generator's behaviour for it is in `utils`.
- Error texts of wrapped errors ("invalid host: ...", "failed to store link: ...", "unexpected path format: ...") are error constructors that carry the wrapped cause, not strings.
- LinkService.ParseLongDurableLink: states field values in terms of `Get` on the parsed query; how `url.Parse` splits the text is not modelled.
- LinkService.CreateOrGetShortLink: requires the reuse oracle to be sound for the current store; an unsound repository answer is not modelled.

=== FILE: collaborators.dfy ===
/** The helpers the link service calls but whose code is not part of this model:
    host cleaning and the format checks of the `utils` package, and URL parsing
    and query escaping from Go's `net/url`. They are uninterpreted functions
    supplied by the caller. The random path generator is modelled by a
    deterministic function of a random seed. */
module Collaborators {
  import opened Wrappers
  import opened Query

  /** A parsed URL: the authority, the (unescaped) path and the decoded query pairs in their written order. */
  datatype Url = Url(host: string, path: string, query: seq<QueryParam>)

  datatype Externals = Externals(
    /** utils.CleanHost: the cleaned host, or the reason it is invalid. */
    cleanHost: string -> Result<string, string>,
    /** utils.IsDomainAllowed(allowList, link) */
    isDomainAllowed: (seq<string>, string) -> bool,
    /** utils.IsNumericString */
    isNumericString: string -> bool,
    /** utils.IsURL */
    isUrl: string -> bool,
    /** utils.ValidateURLScheme: the error it reports, if any. */
    validateUrlScheme: string -> Option<string>,
    /** url.QueryEscape */
    queryEscape: string -> string,
    /** url.Parse; `None` when it reports an error. */
    parseUrl: string -> Option<Url>)

  predicate IsAlphanumeric(ch: char)
  {
    ('a' <= ch <= 'z') || ('A' <= ch <= 'Z') || ('0' <= ch <= '9')
  }

  /** Every character is a letter or a digit. */
  predicate Alphanumeric(s: string)
  {
    forall i :: 0 <= i < |s| ==> IsAlphanumeric(s[i])
  }

  /** The k-th character of the 62-letter alphabet a-z, A-Z, 0-9. */
  function AlphanumericAt(k: nat): (ch: char)
    requires k < 62
    ensures IsAlphanumeric(ch)
  {
    if k < 26 then (('a' as int) + k) as char
    else if k < 52 then (('A' as int) + k - 26) as char
    else (('0' as int) + k - 52) as char
  }

  /** utils.GenerateRandomAlphanumericString(n), whose code is not part of this
      model: assumed to give exactly `n` characters from a-z, A-Z and 0-9, as its
      name says. The `seed` stands for the random source (each base-62 digit of
      the seed picks one character). */
  function RandomToken(seed: nat, n: nat): (t: string)
    ensures |t| == n
    ensures Alphanumeric(t)
  {
    if n == 0 then []
    else [AlphanumericAt(seed % 62)] + RandomToken(seed / 62, n - 1)
  }

  /** An alphanumeric text never contains a path separator. */
  lemma AlphanumericHasNoSlash(s: string)
    requires Alphanumeric(s)
    ensures '/' !in s
  {
  }
}

=== FILE: link_service.dfy ===
/** The durable-link service: it turns a structured link description into a
    query string and a short path (reusing a stored SHORT path when one exists),
    parses a long durable link back into a description, validates incoming
    creation requests, and resolves a requested short or preview link into the
    long link stored behind it. */
module LinkService {
  import opened Wrappers
  import opened Strings
  import opened Query
  import opened Models
  import opened Collaborators
  import opened Store

  datatype Error =
    | InvalidHost(reason: string)    // "invalid host: <cause>", cause from the host cleaner
    | DomainLinkNotAllowed
    | InvalidAppStoreId
    | InvalidUrlFormat
    | HostInvalid
    | InvalidFormat
    | MissingHost
    | MissingLink
    | SchemeRejected(reason: string) // the scheme validator's own error, passed through
    | InvalidRequestedLink
    | InvalidPathFormat              // "unexpected path format: ..."
    | Repository(cause: StoreError)  // a repository error passed through unchanged
    | StoreFailed(cause: StoreError) // "failed to store link: <cause>"

  type Finder = (string, string) -> Result<string, StoreError>

  // ---------------------------------------------------------------------------
  // The key table shared by creation and parsing

  /** The optional fields of a link description that travel as query parameters. */
  datatype Field =
    | Apn | Afl | Amv
    | Ifl | Ipfl | Isi
    | Ofl
    | St | Sd | Si
    | UtmSource | UtmMedium | UtmCampaign | UtmTerm | UtmContent
    | At | Ct | Mt | Pt

  /** The query key of each field. */
  function ParamKey(f: Field): string
  {
    match f
    case Apn => "apn"
    case Afl => "afl"
    case Amv => "amv"
    case Ifl => "ifl"
    case Ipfl => "ipfl"
    case Isi => "isi"
    case Ofl => "ofl"
    case St => "st"
    case Sd => "sd"
    case Si => "si"
    case UtmSource => "utm_source"
    case UtmMedium => "utm_medium"
    case UtmCampaign => "utm_campaign"
    case UtmTerm => "utm_term"
    case UtmContent => "utm_content"
    case At => "at"
    case Ct => "ct"
    case Mt => "mt"
    case Pt => "pt"
  }

  /** The field a query key stands for, if any. */
  function FieldOfKey(key: string): (r: Option<Field>)
    ensures r.Some? ==> ParamKey(r.value) == key
  {
    if key == "apn" then Some(Apn)
    else if key == "afl" then Some(Afl)
    else if key == "amv" then Some(Amv)
    else if key == "ifl" then Some(Ifl)
    else if key == "ipfl" then Some(Ipfl)
    else if key == "isi" then Some(Isi)
    else if key == "ofl" then Some(Ofl)
    else if key == "st" then Some(St)
    else if key == "sd" then Some(Sd)
    else if key == "si" then Some(Si)
    else if key == "utm_source" then Some(UtmSource)
    else if key == "utm_medium" then Some(UtmMedium)
    else if key == "utm_campaign" then Some(UtmCampaign)
    else if key == "utm_term" then Some(UtmTerm)
    else if key == "utm_content" then Some(UtmContent)
    else if key == "at" then Some(At)
    else if key == "ct" then Some(Ct)
    else if key == "mt" then Some(Mt)
    else if key == "pt" then Some(Pt)
    else None
  }

  /** Every field has its own key: reading a field's key back gives the field. */
  lemma KeyTableInverse(f: Field)
    ensures FieldOfKey(ParamKey(f)) == Some(f)
  {
  }

  /** "link" and "path" are not field keys. */
  lemma ReservedKeys()
    ensures FieldOfKey("link") == None && FieldOfKey("path") == None
  {
  }

  /** The value a description holds for a field. */
  function FieldValue(info: DurableLinkInfo, f: Field): string
  {
    match f
    case Apn => info.android.packageName
    case Afl => info.android.fallbackLink
    case Amv => info.android.minPackageVersionCode
    case Ifl => info.ios.fallbackLink
    case Ipfl => info.ios.ipadFallbackLink
    case Isi => info.ios.appStoreId
    case Ofl => info.otherPlatform.fallbackUrl
    case St => info.social.title
    case Sd => info.social.description
    case Si => info.social.imageLink
    case UtmSource => info.analytics.marketing.utmSource
    case UtmMedium => info.analytics.marketing.utmMedium
    case UtmCampaign => info.analytics.marketing.utmCampaign
    case UtmTerm => info.analytics.marketing.utmTerm
    case UtmContent => info.analytics.marketing.utmContent
    case At => info.analytics.itunesConnect.at
    case Ct => info.analytics.itunesConnect.ct
    case Mt => info.analytics.itunesConnect.mt
    case Pt => info.analytics.itunesConnect.pt
  }

  /** The order in which creation adds the optional parameters. */
  const CreationOrder: seq<Field> :=
    [Apn, Afl, Amv, Ifl, Ipfl, Isi, Ofl, St, Sd, Si,
     UtmSource, UtmMedium, UtmCampaign, UtmTerm, UtmContent, Pt, At, Ct, Mt]

  lemma CreationOrderComplete(f: Field)
    ensures f in CreationOrder
  {
  }

  /** No field is listed twice. */
  predicate NoRepeats(fields: seq<Field>)
  {
    forall i, j | 0 <= i < j < |fields| :: fields[i] != fields[j]
  }

  /** The position of a field in the creation order. */
  function CreationIndex(f: Field): nat
  {
    match f
    case Apn => 0 case Afl => 1 case Amv => 2 case Ifl => 3 case Ipfl => 4 case Isi => 5 case Ofl => 6
    case St => 7 case Sd => 8 case Si => 9
    case UtmSource => 10 case UtmMedium => 11 case UtmCampaign => 12 case UtmTerm => 13 case UtmContent => 14
    case Pt => 15 case At => 16 case Ct => 17 case Mt => 18
  }

  /** Each field of the creation order sits at its own position, so creation
      offers each field once. */
  lemma CreationOrderIndexed()
    ensures forall i | 0 <= i < |CreationOrder| :: CreationIndex(CreationOrder[i]) == i
  {
    forall i | 0 <= i < |CreationOrder| ensures CreationIndex(CreationOrder[i]) == i {
      if i < 10 {
        if i < 5 { assert i == 0 || i == 1 || i == 2 || i == 3 || i == 4; }
        else { assert i == 5 || i == 6 || i == 7 || i == 8 || i == 9; }
      } else {
        if i < 15 { assert i == 10 || i == 11 || i == 12 || i == 13 || i == 14; }
        else { assert i == 15 || i == 16 || i == 17 || i == 18; }
      }
    }
  }

  lemma CreationOrderNoRepeats()
    ensures NoRepeats(CreationOrder)
  {
    CreationOrderIndexed();
  }

  // ---------------------------------------------------------------------------
  // Creation: query parameters

  /** The `addParam` calls for `fields`: one pair per field with a non-empty value, in order. */
  function AddParams(info: DurableLinkInfo, fields: seq<Field>): (r: seq<QueryParam>)
    ensures |r| <= |fields|
    ensures forall p | p in r ::
              && p.value != ""
              && FieldOfKey(p.key).Some?
              && FieldOfKey(p.key).value in fields
              && p.value == FieldValue(info, FieldOfKey(p.key).value)
    ensures forall f | f in fields && FieldValue(info, f) != "" ::
              QueryParam(ParamKey(f), FieldValue(info, f)) in r
    ensures NoRepeats(fields) ==> UniqueKeys(r)
  {
    if |fields| == 0 then []
    else
      var f := fields[0];
      var rest := AddParams(info, fields[1..]);
      KeyTableInverse(f);
      assert forall g | g in fields[1..] :: g in fields;
      var r := (if FieldValue(info, f) != "" then [QueryParam(ParamKey(f), FieldValue(info, f))] else []) + rest;
      if NoRepeats(fields) then
        assert NoRepeats(fields[1..]);
        assert f !in fields[1..];
        assert forall p | p in rest :: p.key != ParamKey(f);
        if FieldValue(info, f) != "" then
          UniqueKeysCons(QueryParam(ParamKey(f), FieldValue(info, f)), rest);
          r
        else r
      else r
  }

  /** The query parameters of a creation request: `link` first, always, then every
      non-empty optional field under its key. */
  function BuildQuery(info: DurableLinkInfo): (r: seq<QueryParam>)
    ensures |r| >= 1 && r[0] == QueryParam("link", info.link)
    ensures forall f :: QueryParam(ParamKey(f), FieldValue(info, f)) in r <==> FieldValue(info, f) != ""
    ensures forall p | p in r[1..] ::
              FieldOfKey(p.key).Some? && p.value == FieldValue(info, FieldOfKey(p.key).value) && p.value != ""
    ensures KeyFunctional(r)
    ensures UniqueKeys(r)
  {
    CreationOrderNoRepeats();
    var rest := AddParams(info, CreationOrder);
    var r := [QueryParam("link", info.link)] + rest;
    assert r[1..] == rest;
    ReservedKeys();
    assert forall f :: QueryParam(ParamKey(f), FieldValue(info, f)) in r <==> FieldValue(info, f) != "" by {
      forall f ensures QueryParam(ParamKey(f), FieldValue(info, f)) in r <==> FieldValue(info, f) != "" {
        CreationOrderComplete(f);
        KeyTableInverse(f);
      }
    }
    assert forall p | p in r :: p == r[0] || p in rest;
    assert forall p | p in rest :: p.key != "link";
    UniqueKeysCons(QueryParam("link", info.link), rest);
    r
  }

  /** Each field can be read back from the creation query under its key, and so can `link`. */
  lemma BuildQueryGet(info: DurableLinkInfo)
    ensures Get(BuildQuery(info), "link") == info.link
    ensures forall f :: Get(BuildQuery(info), ParamKey(f)) == FieldValue(info, f)
    ensures Get(BuildQuery(info), "path") == ""
  {
    var q := BuildQuery(info);
    ReservedKeys();
    forall f ensures Get(q, ParamKey(f)) == FieldValue(info, f) {
      KeyTableInverse(f);
      if FieldValue(info, f) != "" {
        GetFunctional(q, QueryParam(ParamKey(f), FieldValue(info, f)));
      } else {
        assert forall p | p in q :: p.key != ParamKey(f) by {
          forall p | p in q ensures p.key != ParamKey(f) {
            if p != q[0] {
              assert p in q[1..];
            }
          }
        }
      }
    }
    forall p | p in q ensures p.key != "path" {
      if p != q[0] {
        assert p in q[1..];
      }
    }
  }

  // ---------------------------------------------------------------------------
  // Creation: warnings

  /** Why a warning is raised: an image link that is not a URL, or an analytics
      parameter that is not needed because the parameter it depends on is missing. */
  datatype WarningCause = MalformedSocialImage | NotNeeded(param: Field, missing: Field)

  /** When a warning is raised, stated per warning rather than in code order. */
  predicate Fires(info: DurableLinkInfo, isUrl: string -> bool, c: WarningCause)
  {
    match c
    case MalformedSocialImage =>
      FieldValue(info, Si) != "" && !isUrl(FieldValue(info, Si))
    case NotNeeded(p, m) =>
      && FieldValue(info, p) != ""
      && FieldValue(info, m) == ""
      && ((m == Isi && (p.At? || p.Ct? || p.Mt? || p.Pt?)) || (m == Pt && (p.At? || p.Ct? || p.Mt?)))
  }

  /** Every warning creation can raise, in the order its checks run. */
  const WarningOrder: seq<WarningCause> :=
    [MalformedSocialImage,
     NotNeeded(At, Isi), NotNeeded(Ct, Isi), NotNeeded(Mt, Isi), NotNeeded(Pt, Isi),
     NotNeeded(At, Pt), NotNeeded(Ct, Pt), NotNeeded(Mt, Pt)]

  function When(b: bool, c: WarningCause): seq<WarningCause>
  {
    if b then [c] else []
  }

  /** The causes of `cs` that fire, in the order of `cs`. */
  function FiringIn(info: DurableLinkInfo, isUrl: string -> bool, cs: seq<WarningCause>): seq<WarningCause>
  {
    if |cs| == 0 then []
    else When(Fires(info, isUrl, cs[0]), cs[0]) + FiringIn(info, isUrl, cs[1..])
  }

  lemma {:induction false} FiringInMembers(info: DurableLinkInfo, isUrl: string -> bool, cs: seq<WarningCause>, c: WarningCause)
    ensures c in FiringIn(info, isUrl, cs) <==> c in cs && Fires(info, isUrl, c)
    decreases |cs|
  {
    if |cs| > 0 {
      FiringInMembers(info, isUrl, cs[1..], c);
      assert cs == [cs[0]] + cs[1..];
    }
  }

  lemma {:induction false} FiringInConcat(info: DurableLinkInfo, isUrl: string -> bool, a: seq<WarningCause>, b: seq<WarningCause>)
    ensures FiringIn(info, isUrl, a + b) == FiringIn(info, isUrl, a) + FiringIn(info, isUrl, b)
    decreases |a|
  {
    if |a| > 0 {
      assert (a + b)[1..] == a[1..] + b;
      FiringInConcat(info, isUrl, a[1..], b);
    } else {
      assert a + b == b;
    }
  }

  lemma FiringInSingle(info: DurableLinkInfo, isUrl: string -> bool, c: WarningCause)
    ensures FiringIn(info, isUrl, [c]) == When(Fires(info, isUrl, c), c)
  {
    assert [c][1..] == [];
  }

  lemma FiringInThree(info: DurableLinkInfo, isUrl: string -> bool, a: WarningCause, b: WarningCause, c: WarningCause)
    ensures FiringIn(info, isUrl, [a, b, c])
            == When(Fires(info, isUrl, a), a) + When(Fires(info, isUrl, b), b) + When(Fires(info, isUrl, c), c)
  {
    assert [a, b, c] == [a] + [b] + [c];
    FiringInConcat(info, isUrl, [a] + [b], [c]);
    FiringInConcat(info, isUrl, [a], [b]);
    FiringInSingle(info, isUrl, a);
    FiringInSingle(info, isUrl, b);
    FiringInSingle(info, isUrl, c);
  }

  lemma FiringInFour(info: DurableLinkInfo, isUrl: string -> bool, a: WarningCause, b: WarningCause, c: WarningCause, d: WarningCause)
    ensures FiringIn(info, isUrl, [a, b, c, d])
            == When(Fires(info, isUrl, a), a) + When(Fires(info, isUrl, b), b)
               + When(Fires(info, isUrl, c), c) + When(Fires(info, isUrl, d), d)
  {
    assert [a, b, c, d] == [a] + [b, c, d];
    FiringInConcat(info, isUrl, [a], [b, c, d]);
    FiringInSingle(info, isUrl, a);
    FiringInThree(info, isUrl, b, c, d);
  }

  /** The image-link check: one MALFORMED_PARAM warning when `si` is set and is not a URL. */
  function MalformedCauses(info: DurableLinkInfo, isUrl: string -> bool): seq<WarningCause>
  {
    var si := info.social.imageLink;
    When(si != "" && !isUrl(si), MalformedSocialImage)
  }

  /** The checks that need `isi`: at, ct, mt, pt, each when set while `isi` is empty. */
  function MissingIsiCauses(info: DurableLinkInfo): seq<WarningCause>
  {
    var a := info.analytics.itunesConnect;
    if info.ios.appStoreId == "" then
      When(a.at != "", NotNeeded(At, Isi)) + When(a.ct != "", NotNeeded(Ct, Isi))
      + When(a.mt != "", NotNeeded(Mt, Isi)) + When(a.pt != "", NotNeeded(Pt, Isi))
    else []
  }

  /** The checks that need `pt`: at, ct, mt, each when set while `pt` is empty. */
  function MissingPtCauses(info: DurableLinkInfo): seq<WarningCause>
  {
    var a := info.analytics.itunesConnect;
    if a.pt == "" then
      When(a.at != "", NotNeeded(At, Pt)) + When(a.ct != "", NotNeeded(Ct, Pt))
      + When(a.mt != "", NotNeeded(Mt, Pt))
    else []
  }

  /** Each group of checks reports exactly its warnings that fire, in check order. */
  lemma MalformedInOrder(info: DurableLinkInfo, isUrl: string -> bool)
    ensures MalformedCauses(info, isUrl) == FiringIn(info, isUrl, WarningOrder[..1])
  {
    assert WarningOrder[..1] == [MalformedSocialImage];
    FiringInSingle(info, isUrl, MalformedSocialImage);
  }

  lemma MissingIsiInOrder(info: DurableLinkInfo, isUrl: string -> bool)
    ensures MissingIsiCauses(info) == FiringIn(info, isUrl, WarningOrder[1..5])
  {
    assert WarningOrder[1..5] == [NotNeeded(At, Isi), NotNeeded(Ct, Isi), NotNeeded(Mt, Isi), NotNeeded(Pt, Isi)];
    FiringInFour(info, isUrl, NotNeeded(At, Isi), NotNeeded(Ct, Isi), NotNeeded(Mt, Isi), NotNeeded(Pt, Isi));
    var a := info.analytics.itunesConnect;
    if info.ios.appStoreId == "" {
      assert Fires(info, isUrl, NotNeeded(At, Isi)) == (a.at != "");
      assert Fires(info, isUrl, NotNeeded(Ct, Isi)) == (a.ct != "");
      assert Fires(info, isUrl, NotNeeded(Mt, Isi)) == (a.mt != "");
      assert Fires(info, isUrl, NotNeeded(Pt, Isi)) == (a.pt != "");
    } else {
      assert !Fires(info, isUrl, NotNeeded(At, Isi)) && !Fires(info, isUrl, NotNeeded(Ct, Isi));
      assert !Fires(info, isUrl, NotNeeded(Mt, Isi)) && !Fires(info, isUrl, NotNeeded(Pt, Isi));
    }
  }

  lemma MissingPtInOrder(info: DurableLinkInfo, isUrl: string -> bool)
    ensures MissingPtCauses(info) == FiringIn(info, isUrl, WarningOrder[5..])
  {
    assert WarningOrder[5..] == [NotNeeded(At, Pt), NotNeeded(Ct, Pt), NotNeeded(Mt, Pt)];
    FiringInThree(info, isUrl, NotNeeded(At, Pt), NotNeeded(Ct, Pt), NotNeeded(Mt, Pt));
    var a := info.analytics.itunesConnect;
    if a.pt == "" {
      assert Fires(info, isUrl, NotNeeded(At, Pt)) == (a.at != "");
      assert Fires(info, isUrl, NotNeeded(Ct, Pt)) == (a.ct != "");
      assert Fires(info, isUrl, NotNeeded(Mt, Pt)) == (a.mt != "");
    } else {
      assert !Fires(info, isUrl, NotNeeded(At, Pt)) && !Fires(info, isUrl, NotNeeded(Ct, Pt));
      assert !Fires(info, isUrl, NotNeeded(Mt, Pt));
    }
  }

  /** The warnings of a creation request, in the order they are appended: the
      image-link check, then the checks that need `isi`, then those that need `pt`.
      The list is exactly the warnings that fire, in the fixed check order. */
  function CreationWarningCauses(info: DurableLinkInfo, isUrl: string -> bool): (r: seq<WarningCause>)
    ensures r == FiringIn(info, isUrl, WarningOrder)
    ensures forall c :: c in r <==> Fires(info, isUrl, c)
  {
    assert WarningOrder == WarningOrder[..1] + WarningOrder[1..5] + WarningOrder[5..];
    MalformedInOrder(info, isUrl);
    MissingIsiInOrder(info, isUrl);
    MissingPtInOrder(info, isUrl);
    FiringInConcat(info, isUrl, WarningOrder[..1] + WarningOrder[1..5], WarningOrder[5..]);
    FiringInConcat(info, isUrl, WarningOrder[..1], WarningOrder[1..5]);
    forall c ensures c in FiringIn(info, isUrl, WarningOrder) <==> Fires(info, isUrl, c) {
      FiringInMembers(info, isUrl, WarningOrder, c);
      if Fires(info, isUrl, c) && c.NotNeeded? {
        assert c.missing == Isi || c.missing == Pt;
      }
    }
    MalformedCauses(info, isUrl) + MissingIsiCauses(info) + MissingPtCauses(info)
  }

  /** The warning record reported for a cause, with the service's exact code and message. */
  function Render(c: WarningCause): (w: Warning)
    ensures w.code == "MALFORMED_PARAM" <==> c.MalformedSocialImage?
    ensures w.code == "UNRECOGNIZED_PARAM" <==> c.NotNeeded?
    ensures c.MalformedSocialImage? ==> w == Warning("MALFORMED_PARAM", "Param 'si' is not a valid URL")
  {
    match c
    case MalformedSocialImage =>
      Warning("MALFORMED_PARAM", "Param 'si' is not a valid URL")
    case NotNeeded(p, m) =>
      Warning("UNRECOGNIZED_PARAM",
              "Param '" + ParamKey(p) + "' is not needed, since '" + ParamKey(m) + "' is not specified.")
  }

  /** No query key contains a quote, so a key is delimited in a message by the quote after it. */
  lemma ParamKeyUnquoted(f: Field)
    ensures '\'' !in ParamKey(f)
  {
  }

  /** The message of a dependency warning, split at the quotes that close its two keys. */
  lemma NotNeededMessageShape(p: Field, m: Field)
    ensures Render(NotNeeded(p, m)).message
            == "Param '" + (ParamKey(p) + ['\''] + (" is not needed, since '" + (ParamKey(m) + ['\''] + " is not specified.")))
  {
    MessageSplit(ParamKey(p), ParamKey(m));
  }

  lemma MessageSplit(k: string, n: string)
    ensures "Param '" + k + "' is not needed, since '" + n + "' is not specified."
            == "Param '" + (k + ['\''] + (" is not needed, since '" + (n + ['\''] + " is not specified.")))
  {
    var mid, tail := " is not needed, since '", " is not specified.";
    assert "' is not needed, since '" == ['\''] + mid;
    assert "' is not specified." == ['\''] + tail;
  }

  /** Different causes render differently: a warning names its cause. */
  lemma RenderInjective(c1: WarningCause, c2: WarningCause)
    requires Render(c1) == Render(c2)
    ensures c1 == c2
  {
    if c1.NotNeeded? && c2.NotNeeded? {
      var mid, tail := " is not needed, since '", " is not specified.";
      var k1, k2 := ParamKey(c1.param), ParamKey(c2.param);
      var m1, m2 := ParamKey(c1.missing), ParamKey(c2.missing);
      NotNeededMessageShape(c1.param, c1.missing);
      NotNeededMessageShape(c2.param, c2.missing);
      ParamKeyUnquoted(c1.param);
      ParamKeyUnquoted(c2.param);
      ParamKeyUnquoted(c1.missing);
      ParamKeyUnquoted(c2.missing);
      var after1 := mid + (m1 + ['\''] + tail);
      var after2 := mid + (m2 + ['\''] + tail);
      var msg := Render(c1).message;
      assert msg[7..] == k1 + ['\''] + after1;
      assert msg[7..] == k2 + ['\''] + after2;
      DelimitedUnique(k1, after1, k2, after2, '\'');
      assert after1[|mid|..] == m1 + ['\''] + tail;
      assert after2[|mid|..] == m2 + ['\''] + tail;
      DelimitedUnique(m1, tail, m2, tail, '\'');
      KeyTableInverse(c1.param);
      KeyTableInverse(c2.param);
      KeyTableInverse(c1.missing);
      KeyTableInverse(c2.missing);
    }
  }

  /** The warnings a creation reports: one rendered warning per firing check, in check order. */
  function CreationWarnings(info: DurableLinkInfo, isUrl: string -> bool): (ws: seq<Warning>)
    ensures |ws| == |CreationWarningCauses(info, isUrl)|
    ensures forall i | 0 <= i < |ws| :: ws[i] == Render(CreationWarningCauses(info, isUrl)[i])
  {
    var causes := CreationWarningCauses(info, isUrl);
    seq(|causes|, i requires 0 <= i < |causes| => Render(causes[i]))
  }

  // ---------------------------------------------------------------------------
  // Creation: short-path allocation

  /** `scheme://host/path` */
  function FormatLink(scheme: string, host: string, path: string): string
  {
    scheme + "://" + host + "/" + path
  }

  /** The length of a freshly minted path. */
  function PathLength(cfg: Config, short: bool): nat
  {
    if short then cfg.shortPathLength else cfg.unguessablePathLength
  }

  /** `after` is `before` plus one record under a key that was free. */
  ghost predicate Minted(before: Links, after: Links, key: LinkKey, rec: LinkRecord)
  {
    key !in before && after == before[key := rec]
  }

  /** Whether an allocation mints a new path: always for an unguessable
      request, and for a SHORT one when the reuse lookup finds nothing. */
  predicate Mints(ext: Externals, find: Finder, host: string, query: seq<QueryParam>, short: bool)
  {
    !short || find(host, Encode(query, ext.queryEscape)) == Failure(NotFound)
  }

  /** createOrGetShortLink: a SHORT request first asks the repository for a
      guessable record with the same (host, query) and reuses its path; otherwise
      a random path of the configured length is minted and stored. The second
      component is the repository afterwards. */
  function CreateOrGetShortLink(
    cfg: Config, ext: Externals, links: Links, find: Finder, seed: nat, outage: Option<string>,
    host: string, query: seq<QueryParam>, short: bool): (r: (Result<ShortLinkResponse, Error>, Links))
    requires FindSound(links, find)
    ensures r.0.Failure? ==> r.1 == links
    ensures r.0.Success? ==> r.0.value.warnings == []
    // reuse
    ensures var raw := Encode(query, ext.queryEscape);
            short && find(host, raw).Success? ==>
              r == (Success(ShortLinkResponse(FormatLink(cfg.urlScheme, host, find(host, raw).value), [])), links)
    ensures var raw := Encode(query, ext.queryEscape);
            short && find(host, raw).Failure? && find(host, raw).error != NotFound ==>
              r == (Failure(Repository(find(host, raw).error)), links)
    // minting
    ensures Mints(ext, find, host, query, short) ==> (r.0.Success? <==> r.1 != links)
    ensures Mints(ext, find, host, query, short) ==>
              (r.0.Success? <==> outage.None? && LinkKey(host, RandomToken(seed, PathLength(cfg, short))) !in links)
    ensures Mints(ext, find, host, query, short) && outage.None? && (forall k | k in links :: k.host != host) ==>
              r.0.Success?
    ensures Mints(ext, find, host, query, short) && r.0.Failure? ==>
              r.0 == Failure(StoreFailed(if outage.Some? then DbError(outage.value) else DuplicatePath))
    ensures var raw := Encode(query, ext.queryEscape);
            r.1 != links ==>
              exists path ::
                && |path| == PathLength(cfg, short)
                && Alphanumeric(path)
                && Minted(links, r.1, LinkKey(host, path), LinkRecord(raw, !short))
                && r.0 == Success(ShortLinkResponse(FormatLink(cfg.urlScheme, host, path), []))
    // either way
    ensures var raw := Encode(query, ext.queryEscape);
            r.0.Success? ==>
              exists path ::
                && r.0.value.shortLink == FormatLink(cfg.urlScheme, host, path)
                && LinkKey(host, path) in r.1
                && r.1[LinkKey(host, path)] == LinkRecord(raw, !short)
  {
    var raw := Encode(query, ext.queryEscape);
    var found := find(host, raw);
    assert FindAnswerSound(links, host, raw, found);
    if short && found.Success? then
      (Success(ShortLinkResponse(FormatLink(cfg.urlScheme, host, found.value), [])), links)
    else if short && found.error != NotFound then
      (Failure(Repository(found.error)), links)
    else
      var path := RandomToken(seed, PathLength(cfg, short));
      var key := LinkKey(host, path);
      match Put(links, key, LinkRecord(raw, !short), outage)
      case Failure(e) => (Failure(StoreFailed(e)), links)
      case Success(after) =>
        assert key in after && key !in links;
        assert Minted(links, after, key, LinkRecord(raw, !short));
        (Success(ShortLinkResponse(FormatLink(cfg.urlScheme, host, path), [])), after)
  }

  /** The checks CreateDurableLink makes before it builds anything. */
  predicate CreationValid(cfg: Config, ext: Externals, info: DurableLinkInfo)
  {
    && ext.cleanHost(info.host).Success?
    && ext.isDomainAllowed(cfg.allowedDomains, info.link)
    && (info.ios.appStoreId == "" || ext.isNumericString(info.ios.appStoreId))
  }

  /** CreateDurableLink: validates the host, the allow-list and the iOS store id,
      in that order; builds the query and the warnings; then allocates or reuses
      a short path under the cleaned host. The second component is the repository afterwards. */
  function CreateDurableLink(
    cfg: Config, ext: Externals, links: Links, find: Finder, seed: nat, outage: Option<string>,
    req: CreateDurableLinkRequest): (r: (Result<ShortLinkResponse, Error>, Links))
    requires FindSound(links, find)
    ensures r.0.Failure? ==> r.1 == links
    // validation, in order
    ensures ext.cleanHost(req.info.host).Failure? ==>
              r.0 == Failure(InvalidHost(ext.cleanHost(req.info.host).error))
    ensures ext.cleanHost(req.info.host).Success? && !ext.isDomainAllowed(cfg.allowedDomains, req.info.link) ==>
              r.0 == Failure(DomainLinkNotAllowed)
    ensures ext.cleanHost(req.info.host).Success? && ext.isDomainAllowed(cfg.allowedDomains, req.info.link)
            && req.info.ios.appStoreId != "" && !ext.isNumericString(req.info.ios.appStoreId) ==>
              r.0 == Failure(InvalidAppStoreId)
    ensures r.0.Success? ==>
              && CreationValid(cfg, ext, req.info)
              && r.0.value.warnings == CreationWarnings(req.info, ext.isUrl)
    // a valid request goes to the allocator, whose outcome it reports with the warnings
    ensures CreationValid(cfg, ext, req.info) ==>
              var host := ext.cleanHost(req.info.host).value;
              var alloc := CreateOrGetShortLink(cfg, ext, links, find, seed, outage, host, BuildQuery(req.info), req.suffix.option == "SHORT");
              && r.1 == alloc.1
              && (alloc.0.Failure? ==> r.0 == alloc.0)
              && (alloc.0.Success? ==>
                    r.0 == Success(ShortLinkResponse(alloc.0.value.shortLink, CreationWarnings(req.info, ext.isUrl))))
    ensures CreationValid(cfg, ext, req.info) && req.suffix.option == "SHORT" ==>
              var host := ext.cleanHost(req.info.host).value;
              var raw := Encode(BuildQuery(req.info), ext.queryEscape);
              find(host, raw).Success? ==>
                r == (Success(ShortLinkResponse(FormatLink(cfg.urlScheme, host, find(host, raw).value),
                                                CreationWarnings(req.info, ext.isUrl))), links)
    ensures CreationValid(cfg, ext, req.info) ==>
              var host := ext.cleanHost(req.info.host).value;
              Mints(ext, find, host, BuildQuery(req.info), req.suffix.option == "SHORT")
              && outage.None? && (forall k | k in links :: k.host != host) ==>
                r.0.Success?
    // what the store holds afterwards
    ensures r.0.Success? ==>
              var host := ext.cleanHost(req.info.host).value;
              exists path ::
                && r.0.value.shortLink == FormatLink(cfg.urlScheme, host, path)
                && LinkKey(host, path) in r.1
                && r.1[LinkKey(host, path)]
                   == LinkRecord(Encode(BuildQuery(req.info), ext.queryEscape), req.suffix.option != "SHORT")
    ensures r.1 != links ==>
              && CreationValid(cfg, ext, req.info)
              && var host := ext.cleanHost(req.info.host).value;
                 var short := req.suffix.option == "SHORT";
                 exists path ::
                   && |path| == PathLength(cfg, short)
                   && Alphanumeric(path)
                   && Minted(links, r.1, LinkKey(host, path),
                             LinkRecord(Encode(BuildQuery(req.info), ext.queryEscape), !short))
  {
    var info := req.info;
    match ext.cleanHost(info.host)
    case Failure(e) => (Failure(InvalidHost(e)), links)
    case Success(host) =>
      if !ext.isDomainAllowed(cfg.allowedDomains, info.link) then
        (Failure(DomainLinkNotAllowed), links)
      else if info.ios.appStoreId != "" && !ext.isNumericString(info.ios.appStoreId) then
        (Failure(InvalidAppStoreId), links)
      else
        var query := BuildQuery(info);
        var warnings := CreationWarnings(info, ext.isUrl);
        var short := req.suffix.option == "SHORT";
        var (res, after) := CreateOrGetShortLink(cfg, ext, links, find, seed, outage, host, query, short);
        match res
        case Failure(e) => (Failure(e), after)
        case Success(resp) => (Success(resp.(warnings := warnings)), after)
  }

  // ---------------------------------------------------------------------------
  // Long-link parsing

  /** The configured default of a field: only `apn` and `isi` have one. */
  function DefaultFor(cfg: Config, f: Field): string
  {
    match f
    case Apn => cfg.defaultAndroidPackageName.GetOr("")
    case Isi => cfg.defaultIosStoreId.GetOr("")
    case _ => ""
  }

  /** A field as the parser sets it: the query value when non-empty, else the default. */
  function ParsedField(cfg: Config, q: seq<QueryParam>, f: Field): (v: string)
    ensures Get(q, ParamKey(f)) != "" ==> v == Get(q, ParamKey(f))
    ensures Get(q, ParamKey(f)) == "" ==> v == DefaultFor(cfg, f)
  {
    var v := Get(q, ParamKey(f));
    if v != "" then v else DefaultFor(cfg, f)
  }

  /** The description the parser builds from a host and the decoded query pairs. */
  function ParsedInfo(cfg: Config, host: string, q: seq<QueryParam>): DurableLinkInfo
  {
    DurableLinkInfo(
      host,
      Get(q, "link"),
      AndroidParameters(ParsedField(cfg, q, Apn), ParsedField(cfg, q, Afl), ParsedField(cfg, q, Amv)),
      IosParameters(ParsedField(cfg, q, Isi), ParsedField(cfg, q, Ifl), ParsedField(cfg, q, Ipfl)),
      OtherPlatformParameters(ParsedField(cfg, q, Ofl)),
      SocialMetaTagInfo(ParsedField(cfg, q, St), ParsedField(cfg, q, Sd), ParsedField(cfg, q, Si)),
      AnalyticsInfo(
        MarketingParameters(ParsedField(cfg, q, UtmSource), ParsedField(cfg, q, UtmMedium), ParsedField(cfg, q, UtmCampaign), ParsedField(cfg, q, UtmTerm), ParsedField(cfg, q, UtmContent)),
        ItunesConnectAnalytics(ParsedField(cfg, q, At), ParsedField(cfg, q, Ct), ParsedField(cfg, q, Mt), ParsedField(cfg, q, Pt))))
  }

  lemma ParsedInfoFields(cfg: Config, host: string, q: seq<QueryParam>)
    ensures forall f :: FieldValue(ParsedInfo(cfg, host, q), f) == ParsedField(cfg, q, f)
  {
    forall f ensures FieldValue(ParsedInfo(cfg, host, q), f) == ParsedField(cfg, q, f) {
      match f
      case Apn => case Afl => case Amv => case Ifl => case Ipfl => case Isi => case Ofl =>
      case St => case Sd => case Si =>
      case UtmSource => case UtmMedium => case UtmCampaign => case UtmTerm => case UtmContent =>
      case At => case Ct => case Mt => case Pt =>
    }
  }

  /** The request the parser builds from a host and the decoded query pairs:
      `link` and the suffix option are read as given, and every field of the key
      table from its own key, falling back to the configured default when that
      value is empty. */
  function RequestFromQuery(cfg: Config, host: string, q: seq<QueryParam>): (r: CreateDurableLinkRequest)
    ensures r.info.host == host
    ensures r.info.link == Get(q, "link")
    ensures r.suffix.option == Get(q, "path")
    ensures forall f :: Get(q, ParamKey(f)) != "" ==> FieldValue(r.info, f) == Get(q, ParamKey(f))
    ensures forall f :: Get(q, ParamKey(f)) == "" ==> FieldValue(r.info, f) == DefaultFor(cfg, f)
  {
    ParsedInfoFields(cfg, host, q);
    CreateDurableLinkRequest(ParsedInfo(cfg, host, q), Suffix(Get(q, "path")))
  }

  /** ParseLongDurableLink: a URL that does not parse, or parses without a host,
      is rejected; otherwise the description is read from its query. */
  function ParseLongDurableLink(cfg: Config, ext: Externals, longLink: string): (r: Result<CreateDurableLinkRequest, Error>)
    ensures r.Success? <==> ext.parseUrl(longLink).Some? && ext.parseUrl(longLink).value.host != ""
    ensures ext.parseUrl(longLink).None? ==> r == Failure(InvalidUrlFormat)
    ensures ext.parseUrl(longLink).Some? && ext.parseUrl(longLink).value.host == "" ==> r == Failure(HostInvalid)
    ensures r.Success? ==>
              var u := ext.parseUrl(longLink).value;
              && ext.parseUrl(longLink).Some?
              && u.host != ""
              && r.value.info.host == u.host
              && r.value.info.link == Get(u.query, "link")
              && r.value.suffix.option == Get(u.query, "path")
              && (forall f :: Get(u.query, ParamKey(f)) != "" ==> FieldValue(r.value.info, f) == Get(u.query, ParamKey(f)))
              && (forall f :: Get(u.query, ParamKey(f)) == "" ==> FieldValue(r.value.info, f) == DefaultFor(cfg, f))
  {
    match ext.parseUrl(longLink)
    case None => Failure(InvalidUrlFormat)
    case Some(u) =>
      if u.host == "" then Failure(HostInvalid)
      else Success(RequestFromQuery(cfg, u.host, u.query))
  }

  // ---------------------------------------------------------------------------
  // Request preparation

  /** An incoming creation body: the `longDurableLink` entry when it is a string,
      and the body decoded as a structured request (`None` when decoding fails). */
  datatype RequestBody = RequestBody(longDurableLink: Option<string>, structured: Option<CreateDurableLinkRequest>)

  /** The decode step: a non-empty long link is parsed, otherwise the structured form is used. */
  function DecodeBody(cfg: Config, ext: Externals, body: RequestBody): (r: Result<CreateDurableLinkRequest, Error>)
    ensures body.longDurableLink.Some? && body.longDurableLink.value != "" ==>
              r == ParseLongDurableLink(cfg, ext, body.longDurableLink.value)
    ensures !(body.longDurableLink.Some? && body.longDurableLink.value != "") ==>
              (r.Success? <==> body.structured.Some?)
              && (r.Success? ==> r.value == body.structured.value)
              && (r.Failure? ==> r.error == InvalidFormat)
  {
    if body.longDurableLink.Some? && body.longDurableLink.value != "" then
      ParseLongDurableLink(cfg, ext, body.longDurableLink.value)
    else
      match body.structured
      case None => Failure(InvalidFormat)
      case Some(req) => Success(req)
  }

  /** PrepareDurableLinkRequest: decodes the body, then requires a host, then a
      link, then an accepted link scheme, in that order. */
  function PrepareDurableLinkRequest(cfg: Config, ext: Externals, body: RequestBody): (r: Result<CreateDurableLinkRequest, Error>)
    ensures DecodeBody(cfg, ext, body).Failure? ==> r == DecodeBody(cfg, ext, body)
    ensures DecodeBody(cfg, ext, body).Success? ==>
              var req := DecodeBody(cfg, ext, body).value;
              && (req.info.host == "" ==> r == Failure(MissingHost))
              && (req.info.host != "" && req.info.link == "" ==> r == Failure(MissingLink))
              && (req.info.host != "" && req.info.link != "" && ext.validateUrlScheme(req.info.link).Some? ==>
                    r == Failure(SchemeRejected(ext.validateUrlScheme(req.info.link).value)))
    ensures r.Success? <==>
              && DecodeBody(cfg, ext, body).Success?
              && DecodeBody(cfg, ext, body).value.info.host != ""
              && DecodeBody(cfg, ext, body).value.info.link != ""
              && ext.validateUrlScheme(DecodeBody(cfg, ext, body).value.info.link).None?
    ensures r.Success? ==>
              && r == DecodeBody(cfg, ext, body)
              && r.value.info.host != ""
              && r.value.info.link != ""
              && ext.validateUrlScheme(r.value.info.link).None?
  {
    match DecodeBody(cfg, ext, body)
    case Failure(e) => Failure(e)
    case Success(req) =>
      if req.info.host == "" then Failure(MissingHost)
      else if req.info.link == "" then Failure(MissingLink)
      else
        match ext.validateUrlScheme(req.info.link)
        case Some(e) => Failure(SchemeRejected(e))
        case None => Success(req)
  }

  // ---------------------------------------------------------------------------
  // Resolution

  /** removePreviewFromHost: strips a leading `preview.` label, or else a
      `-preview` ending of the first label; each marker is eight characters. */
  function RemovePreviewFromHost(host: string): (r: string)
    ensures HasPrefix(host, "preview.") ==> "preview." + r == host
    ensures r == host || |r| + 8 == |host|
  {
    if HasPrefix(host, "preview.") then TrimPrefix(host, "preview.")
    else
      var parts := SplitFirst(host, '.');
      if |parts| == 2 && HasSuffix(parts[0], "-preview") then
        TrimSuffix(parts[0], "-preview") + "." + parts[1]
      else host
  }

  /** The long link of a stored query string: `scheme://host/path`, followed by
      `?` and the query when the stored query is not empty. */
  function LongLinkText(scheme: string, host: string, path: string, rawQuery: string): string
  {
    FormatLink(scheme, host, path) + (if rawQuery == "" then "" else "?" + rawQuery)
  }

  /** getLongLinkFromHostAndPath: looks (host, path) up and rebuilds the long link
      under the host it was given. */
  function LongLinkFromHostAndPath(cfg: Config, links: Links, outage: Option<string>, host: string, path: string)
    : (r: Result<LongLinkResponse, Error>)
    ensures r.Success? <==> outage.None? && LinkKey(host, path) in links
    ensures r.Success? ==>
              r.value.longLink == LongLinkText(cfg.urlScheme, host, path, links[LinkKey(host, path)].rawQuery)
    ensures r.Failure? ==> r.error == Repository(Store.Lookup(links, host, path, outage).error)
  {
    match Store.Lookup(links, host, path, outage)
    case Failure(e) => Failure(Repository(e))
    case Success(raw) => Success(LongLinkResponse(LongLinkText(cfg.urlScheme, host, path, raw)))
  }

  /** The resolution of an already parsed requested URL: the path, trimmed of
      slashes, must be a single segment (possibly empty); it is looked up under
      the host with its preview marker removed. */
  function ResolveParsed(cfg: Config, links: Links, outage: Option<string>, u: Url): (r: Result<LongLinkResponse, Error>)
    ensures '/' in Trim(u.path, '/') ==> r == Failure(InvalidPathFormat)
    ensures '/' !in Trim(u.path, '/') ==>
              r == LongLinkFromHostAndPath(cfg, links, outage, RemovePreviewFromHost(u.host), Trim(u.path, '/'))
    ensures r.Success? <==>
              && '/' !in Trim(u.path, '/')
              && outage.None?
              && LinkKey(RemovePreviewFromHost(u.host), Trim(u.path, '/')) in links
  {
    var normalizedHost := RemovePreviewFromHost(u.host);
    var pathParts := Split(Trim(u.path, '/'), '/');
    if |pathParts| != 1 then Failure(InvalidPathFormat)
    else LongLinkFromHostAndPath(cfg, links, outage, normalizedHost, pathParts[0])
  }

  /** ResolveShortPath: an unparsable requested URL is rejected, otherwise it is resolved. */
  function ResolveShortPath(cfg: Config, ext: Externals, links: Links, outage: Option<string>, rawUrl: string)
    : (r: Result<LongLinkResponse, Error>)
    ensures ext.parseUrl(rawUrl).None? ==> r == Failure(InvalidRequestedLink)
    ensures r.Success? <==>
              && ext.parseUrl(rawUrl).Some?
              && '/' !in Trim(ext.parseUrl(rawUrl).value.path, '/')
              && outage.None?
              && LinkKey(RemovePreviewFromHost(ext.parseUrl(rawUrl).value.host),
                         Trim(ext.parseUrl(rawUrl).value.path, '/')) in links
    ensures r.Success? ==>
              var u := ext.parseUrl(rawUrl).value;
              var host := RemovePreviewFromHost(u.host);
              var path := Trim(u.path, '/');
              r.value.longLink == LongLinkText(cfg.urlScheme, host, path, links[LinkKey(host, path)].rawQuery)
    ensures ext.parseUrl(rawUrl).Some? && '/' in Trim(ext.parseUrl(rawUrl).value.path, '/') ==>
              r == Failure(InvalidPathFormat)
    ensures ext.parseUrl(rawUrl).Some? && '/' !in Trim(ext.parseUrl(rawUrl).value.path, '/') && outage.Some? ==>
              r == Failure(Repository(DbError(outage.value)))
    ensures ext.parseUrl(rawUrl).Some? && '/' !in Trim(ext.parseUrl(rawUrl).value.path, '/') && outage.None?
            && LinkKey(RemovePreviewFromHost(ext.parseUrl(rawUrl).value.host),
                       Trim(ext.parseUrl(rawUrl).value.path, '/')) !in links ==>
              r == Failure(Repository(NotFound))
  {
    match ext.parseUrl(rawUrl)
    case None => Failure(InvalidRequestedLink)
    case Some(u) => ResolveParsed(cfg, links, outage, u)
  }
}

=== FILE: models.dfy ===
/** The request, response and configuration shapes of the durable-links service.
    Every string field is optional in the Go sense: the empty string means "not given". */
module Models {
  import opened Wrappers

  datatype AndroidParameters = AndroidParameters(
    packageName: string,            // apn
    fallbackLink: string,           // afl
    minPackageVersionCode: string)  // amv

  datatype IosParameters = IosParameters(
    appStoreId: string,             // isi
    fallbackLink: string,           // ifl
    ipadFallbackLink: string)       // ipfl

  datatype OtherPlatformParameters = OtherPlatformParameters(
    fallbackUrl: string)            // ofl

  datatype SocialMetaTagInfo = SocialMetaTagInfo(
    title: string,                  // st
    description: string,            // sd
    imageLink: string)              // si

  datatype MarketingParameters = MarketingParameters(
    utmSource: string,
    utmMedium: string,
    utmCampaign: string,
    utmTerm: string,
    utmContent: string)

  datatype ItunesConnectAnalytics = ItunesConnectAnalytics(
    at: string,
    ct: string,
    mt: string,
    pt: string)

  datatype AnalyticsInfo = AnalyticsInfo(
    marketing: MarketingParameters,
    itunesConnect: ItunesConnectAnalytics)

  datatype DurableLinkInfo = DurableLinkInfo(
    host: string,
    link: string,
    android: AndroidParameters,
    ios: IosParameters,
    otherPlatform: OtherPlatformParameters,
    social: SocialMetaTagInfo,
    analytics: AnalyticsInfo)

  /** `option` is "SHORT" for a short, reusable path; anything else asks for an unguessable one. */
  datatype Suffix = Suffix(option: string)

  datatype CreateDurableLinkRequest = CreateDurableLinkRequest(info: DurableLinkInfo, suffix: Suffix)

  datatype Warning = Warning(code: string, message: string)

  datatype ShortLinkResponse = ShortLinkResponse(shortLink: string, warnings: seq<Warning>)

  datatype LongLinkResponse = LongLinkResponse(longLink: string)

  /** The application settings the service reads; loaded once and never changed. */
  datatype Config = Config(
    urlScheme: string,
    shortPathLength: nat,
    unguessablePathLength: nat,
    defaultAndroidPackageName: Option<string>,
    defaultIosStoreId: Option<string>,
    allowedDomains: seq<string>)
}

=== FILE: properties.dfy ===
/** Properties that relate several operations of the link service: parsing
    inverts query building, SHORT creation reuses its own path, unguessable
    creation always mints a new path, a created link resolves to its query, and
    preview hosts resolve like their production hosts. */
module LinkProperties {
  import opened Wrappers
  import opened Strings
  import opened Query
  import opened Models
  import opened Collaborators
  import opened Store
  import opened LinkService

  // ---------------------------------------------------------------------------
  // Parsing inverts creation's query building

  /** A description with the configured defaults filled into an empty `apn` or `isi`. */
  function WithDefaults(cfg: Config, info: DurableLinkInfo): (r: DurableLinkInfo)
    ensures forall f :: FieldValue(info, f) != "" ==> FieldValue(r, f) == FieldValue(info, f)
  {
    var apn := if info.android.packageName != "" then info.android.packageName else DefaultFor(cfg, Apn);
    var isi := info.ios.appStoreId;
    var isi' := if isi != "" then isi else DefaultFor(cfg, Isi);
    info.(android := info.android.(packageName := apn), ios := info.ios.(appStoreId := isi'))
  }

  lemma WithDefaultsField(cfg: Config, info: DurableLinkInfo, f: Field)
    ensures FieldValue(WithDefaults(cfg, info), f)
            == if FieldValue(info, f) != "" then FieldValue(info, f) else DefaultFor(cfg, f)
  {
  }

  /** Two descriptions that agree on host, link and every field of the key table are equal. */
  lemma InfoExtensional(a: DurableLinkInfo, b: DurableLinkInfo)
    requires a.host == b.host && a.link == b.link
    requires forall f :: FieldValue(a, f) == FieldValue(b, f)
    ensures a == b
  {
    assert a.android == b.android by {
      assert FieldValue(a, Apn) == FieldValue(b, Apn);
      assert FieldValue(a, Afl) == FieldValue(b, Afl);
      assert FieldValue(a, Amv) == FieldValue(b, Amv);
    }
    assert a.ios == b.ios by {
      assert FieldValue(a, Isi) == FieldValue(b, Isi);
      assert FieldValue(a, Ifl) == FieldValue(b, Ifl);
      assert FieldValue(a, Ipfl) == FieldValue(b, Ipfl);
    }
    assert a.otherPlatform == b.otherPlatform by {
      assert FieldValue(a, Ofl) == FieldValue(b, Ofl);
    }
    assert a.social == b.social by {
      assert FieldValue(a, St) == FieldValue(b, St);
      assert FieldValue(a, Sd) == FieldValue(b, Sd);
      assert FieldValue(a, Si) == FieldValue(b, Si);
    }
    assert a.analytics.marketing == b.analytics.marketing by {
      assert FieldValue(a, UtmSource) == FieldValue(b, UtmSource);
      assert FieldValue(a, UtmMedium) == FieldValue(b, UtmMedium);
      assert FieldValue(a, UtmCampaign) == FieldValue(b, UtmCampaign);
      assert FieldValue(a, UtmTerm) == FieldValue(b, UtmTerm);
      assert FieldValue(a, UtmContent) == FieldValue(b, UtmContent);
    }
    assert a.analytics.itunesConnect == b.analytics.itunesConnect by {
      assert FieldValue(a, At) == FieldValue(b, At);
      assert FieldValue(a, Ct) == FieldValue(b, Ct);
      assert FieldValue(a, Mt) == FieldValue(b, Mt);
      assert FieldValue(a, Pt) == FieldValue(b, Pt);
    }
  }

  /** Reading a description back from the creation query, in the sorted order
      it is encoded in, gives the description (with the configured `apn`/`isi`
      defaults filled into empty fields) and no suffix option: creation and
      parsing share one key table. */
  lemma QueryRoundTrip(cfg: Config, info: DurableLinkInfo)
    ensures RequestFromQuery(cfg, info.host, SortByKey(BuildQuery(info)))
            == CreateDurableLinkRequest(WithDefaults(cfg, info), Suffix(""))
  {
    var q := BuildQuery(info);
    var sorted := SortByKey(q);
    BuildQueryGet(info);
    GetSorted(q, "link");
    GetSorted(q, "path");
    var req := RequestFromQuery(cfg, info.host, sorted);
    forall f ensures FieldValue(req.info, f) == FieldValue(WithDefaults(cfg, info), f) {
      GetSorted(q, ParamKey(f));
      WithDefaultsField(cfg, info, f);
    }
    InfoExtensional(req.info, WithDefaults(cfg, info));
  }

  /** Parsing a long link whose query is the encoded creation query of `info`
      gives back `info`, with the configured defaults filled in, and no suffix. */
  lemma ParseInvertsBuild(cfg: Config, ext: Externals, info: DurableLinkInfo, longLink: string, path: string)
    requires info.host != ""
    requires ext.parseUrl(longLink) == Some(Url(info.host, path, SortByKey(BuildQuery(info))))
    ensures ParseLongDurableLink(cfg, ext, longLink)
            == Success(CreateDurableLinkRequest(WithDefaults(cfg, info), Suffix("")))
  {
    QueryRoundTrip(cfg, info);
  }

  lemma NoDefaultsNoChange(cfg: Config, info: DurableLinkInfo)
    requires cfg.defaultAndroidPackageName.None? && cfg.defaultIosStoreId.None?
    ensures WithDefaults(cfg, info) == info
  {
    assert DefaultFor(cfg, Apn) == "" && DefaultFor(cfg, Isi) == "";
  }

  /** Without configured defaults the round trip is exact. */
  lemma ParseInvertsBuildExactly(cfg: Config, ext: Externals, info: DurableLinkInfo, longLink: string, path: string)
    requires cfg.defaultAndroidPackageName.None? && cfg.defaultIosStoreId.None?
    requires info.host != ""
    requires ext.parseUrl(longLink) == Some(Url(info.host, path, SortByKey(BuildQuery(info))))
    ensures ParseLongDurableLink(cfg, ext, longLink) == Success(CreateDurableLinkRequest(info, Suffix("")))
  {
    ParseInvertsBuild(cfg, ext, info, longLink, path);
    NoDefaultsNoChange(cfg, info);
  }

  /** Any reordering of the creation query encodes to the same string, so the
      reuse lookup does not depend on the order parameters were added in. */
  lemma CreationEncodingCanonical(info: DurableLinkInfo, reordered: seq<QueryParam>, escape: string -> string)
    requires multiset(reordered) == multiset(BuildQuery(info))
    ensures Encode(reordered, escape) == Encode(BuildQuery(info), escape)
  {
    EncodeCanonical(BuildQuery(info), reordered, escape);
  }

  // ---------------------------------------------------------------------------
  // Allocation

  /** A SHORT allocation that minted a path is found again by the next SHORT
      allocation of the same (host, query): the same link comes back and the
      repository is left alone. Any successful SHORT allocation makes the next
      one a reuse. */
  lemma ShortLinkReused(
    cfg: Config, ext: Externals, links: Links, find1: Finder, find2: Finder,
    seed1: nat, seed2: nat, outage1: Option<string>, outage2: Option<string>,
    host: string, query: seq<QueryParam>)
    requires FindSound(links, find1)
    requires CreateOrGetShortLink(cfg, ext, links, find1, seed1, outage1, host, query, true).0.Success?
    requires FindSound(CreateOrGetShortLink(cfg, ext, links, find1, seed1, outage1, host, query, true).1, find2)
    requires var raw := Encode(query, ext.queryEscape);
             find2(host, raw).Success? || find2(host, raw) == Failure(NotFound)
    ensures var r1 := CreateOrGetShortLink(cfg, ext, links, find1, seed1, outage1, host, query, true);
            var r2 := CreateOrGetShortLink(cfg, ext, r1.1, find2, seed2, outage2, host, query, true);
            && r2.0.Success?
            && r2.1 == r1.1
            && (r1.1 != links ==> r2.0 == r1.0)
  {
    var raw := Encode(query, ext.queryEscape);
    var r1 := CreateOrGetShortLink(cfg, ext, links, find1, seed1, outage1, host, query, true);
    var path :| && r1.0.value.shortLink == FormatLink(cfg.urlScheme, host, path)
                && LinkKey(host, path) in r1.1
                && r1.1[LinkKey(host, path)] == LinkRecord(raw, false);
    assert FindAnswerSound(r1.1, host, raw, find2(host, raw));
    assert ReusableAt(r1.1, host, raw, path);
    assert find2(host, raw).Success?;
    if r1.1 != links {
      var minted :| && |minted| == PathLength(cfg, true)
                    && Alphanumeric(minted)
                    && Minted(links, r1.1, LinkKey(host, minted), LinkRecord(raw, false))
                    && r1.0 == Success(ShortLinkResponse(FormatLink(cfg.urlScheme, host, minted), []));
      assert FindAnswerSound(links, host, raw, find1(host, raw));
      assert find1(host, raw) == Failure(NotFound);
      var p2 := find2(host, raw).value;
      if p2 != minted {
        assert LinkKey(host, p2) in links && ReusableAt(links, host, raw, p2);
      }
    }
  }

  lemma FormatLinkInjective(scheme: string, host: string, p1: string, p2: string)
    requires FormatLink(scheme, host, p1) == FormatLink(scheme, host, p2)
    ensures p1 == p2
  {
    var prefix := scheme + "://" + host + "/";
    assert FormatLink(scheme, host, p1) == prefix + p1;
    assert FormatLink(scheme, host, p2) == prefix + p2;
    assert (prefix + p1)[|prefix|..] == p1;
    assert (prefix + p2)[|prefix|..] == p2;
  }

  /** Two successful unguessable allocations of the same (host, query) mint two
      different paths: both records are kept and the links differ. */
  lemma UnguessableLinksDistinct(
    cfg: Config, ext: Externals, links: Links, find1: Finder, find2: Finder,
    seed1: nat, seed2: nat, outage1: Option<string>, outage2: Option<string>,
    host: string, query: seq<QueryParam>)
    requires FindSound(links, find1)
    requires CreateOrGetShortLink(cfg, ext, links, find1, seed1, outage1, host, query, false).0.Success?
    requires FindSound(CreateOrGetShortLink(cfg, ext, links, find1, seed1, outage1, host, query, false).1, find2)
    requires var r1 := CreateOrGetShortLink(cfg, ext, links, find1, seed1, outage1, host, query, false);
             CreateOrGetShortLink(cfg, ext, r1.1, find2, seed2, outage2, host, query, false).0.Success?
    ensures var r1 := CreateOrGetShortLink(cfg, ext, links, find1, seed1, outage1, host, query, false);
            var r2 := CreateOrGetShortLink(cfg, ext, r1.1, find2, seed2, outage2, host, query, false);
            && r2.0.value.shortLink != r1.0.value.shortLink
            && |r2.1| == |links| + 2
  {
    var raw := Encode(query, ext.queryEscape);
    var r1 := CreateOrGetShortLink(cfg, ext, links, find1, seed1, outage1, host, query, false);
    var r2 := CreateOrGetShortLink(cfg, ext, r1.1, find2, seed2, outage2, host, query, false);
    var p1 :| && |p1| == PathLength(cfg, false) && Alphanumeric(p1)
              && Minted(links, r1.1, LinkKey(host, p1), LinkRecord(raw, true))
              && r1.0 == Success(ShortLinkResponse(FormatLink(cfg.urlScheme, host, p1), []));
    var p2 :| && |p2| == PathLength(cfg, false) && Alphanumeric(p2)
              && Minted(r1.1, r2.1, LinkKey(host, p2), LinkRecord(raw, true))
              && r2.0 == Success(ShortLinkResponse(FormatLink(cfg.urlScheme, host, p2), []));
    assert p1 != p2;
    if r2.0.value.shortLink == r1.0.value.shortLink {
      FormatLinkInjective(cfg.urlScheme, host, p1, p2);
    }
  }

  // ---------------------------------------------------------------------------
  // Resolution

  /** Every stored path is alphanumeric, as the generator makes them; in
      particular each is a single path segment. */
  ghost predicate AlphanumericPaths(links: Links)
  {
    forall k | k in links :: Alphanumeric(k.path)
  }

  lemma EncodeNonEmpty(q: seq<QueryParam>, escape: string -> string)
    requires |q| > 0
    ensures Encode(q, escape) != ""
  {
    var s := SortByKey(q);
    assert |s| == |multiset(s)| == |multiset(q)| == |q|;
    assert EncodeItem(s[0], escape)[|escape(s[0].key)|] == '=';
  }

  /** Creation keeps every stored path alphanumeric. */
  lemma CreatePreservesAlphanumeric(
    cfg: Config, ext: Externals, links: Links, find: Finder, seed: nat, outage: Option<string>,
    req: CreateDurableLinkRequest)
    requires FindSound(links, find) && AlphanumericPaths(links)
    ensures AlphanumericPaths(CreateDurableLink(cfg, ext, links, find, seed, outage, req).1)
  {
  }

  /** A requested path that is one segment after its leading `/` is looked up as that segment. */
  lemma SingleSegmentLookedUp(cfg: Config, links: Links, outage: Option<string>, host: string, path: string, q: seq<QueryParam>)
    requires '/' !in path
    ensures ResolveParsed(cfg, links, outage, Url(host, "/" + path, q))
            == LongLinkFromHostAndPath(cfg, links, outage, RemovePreviewFromHost(host), path)
  {
    assert "/" + path == "/" + path + "";
    TrimWrapped("/", path, "", '/');
  }

  /** A stored single-segment path under a host without a preview marker
      resolves to its short link followed by `?` and the stored query. */
  lemma StoredPathResolves(cfg: Config, ext: Externals, links: Links, host: string, path: string, raw: string)
    requires LinkKey(host, path) in links && links[LinkKey(host, path)].rawQuery == raw
    requires raw != "" && '/' !in path
    requires RemovePreviewFromHost(host) == host
    requires ext.parseUrl(FormatLink(cfg.urlScheme, host, path)) == Some(Url(host, "/" + path, []))
    ensures ResolveShortPath(cfg, ext, links, None, FormatLink(cfg.urlScheme, host, path))
            == Success(LongLinkResponse(FormatLink(cfg.urlScheme, host, path) + "?" + raw))
  {
    SingleSegmentLookedUp(cfg, links, None, host, path, []);
    assert LongLinkText(cfg.urlScheme, host, path, raw) == FormatLink(cfg.urlScheme, host, path) + "?" + raw;
  }

  /** End to end: the short link a successful creation returns resolves, in the
      repository creation left behind, to that short link followed by `?` and the
      encoded creation query (for a host without a preview marker, and a URL
      parser that reads back links whose path is alphanumeric). */
  lemma CreatedLinkResolves(
    cfg: Config, ext: Externals, links: Links, find: Finder, seed: nat, outage: Option<string>,
    req: CreateDurableLinkRequest)
    requires FindSound(links, find) && AlphanumericPaths(links)
    requires CreateDurableLink(cfg, ext, links, find, seed, outage, req).0.Success?
    requires ext.cleanHost(req.info.host).Success?
    requires var host := ext.cleanHost(req.info.host).value;
             && RemovePreviewFromHost(host) == host
             && forall p | Alphanumeric(p) :: ext.parseUrl(FormatLink(cfg.urlScheme, host, p)) == Some(Url(host, "/" + p, []))
    ensures var r := CreateDurableLink(cfg, ext, links, find, seed, outage, req);
            ResolveShortPath(cfg, ext, r.1, None, r.0.value.shortLink)
            == Success(LongLinkResponse(r.0.value.shortLink + "?" + Encode(BuildQuery(req.info), ext.queryEscape)))
  {
    var r := CreateDurableLink(cfg, ext, links, find, seed, outage, req);
    var host := ext.cleanHost(req.info.host).value;
    var raw := Encode(BuildQuery(req.info), ext.queryEscape);
    var path :| && r.0.value.shortLink == FormatLink(cfg.urlScheme, host, path)
                && LinkKey(host, path) in r.1
                && r.1[LinkKey(host, path)] == LinkRecord(raw, req.suffix.option != "SHORT");
    CreatePreservesAlphanumeric(cfg, ext, links, find, seed, outage, req);
    AlphanumericHasNoSlash(path);
    EncodeNonEmpty(BuildQuery(req.info), ext.queryEscape);
    StoredPathResolves(cfg, ext, r.1, host, path, raw);
  }

  /** A host that starts with `preview.` loses exactly that prefix, once. */
  lemma PreviewPrefixRemoved(host: string)
    ensures RemovePreviewFromHost("preview." + host) == host
  {
    assert HasPrefix("preview." + host, "preview.");
  }

  /** A first label ending in `-preview` loses that ending and is rejoined to the rest. */
  lemma PreviewLabelRemoved(app: string, rest: string)
    requires '.' !in app
    ensures RemovePreviewFromHost(app + "-preview." + rest) == app + "." + rest
  {
    var first := app + "-preview";
    var host := first + "." + rest;
    assert host == app + "-preview." + rest;
    assert '.' !in first by {
      assert forall k | 0 <= k < |first| :: first[k] == (if k < |app| then app[k] else "-preview"[k - |app|]);
    }
    // the eighth character of the host lies inside the first label, so it is no '.'
    assert host[7] == first[7];
    assert !HasPrefix(host, "preview.") by {
      assert "preview."[7] == '.';
    }
    SplitFirstAt(first, rest, '.');
    assert first[..|app|] == app;
    assert HasSuffix(first, "-preview");
  }

  /** A host whose first label is shorter than `-preview` and that does not start
      with `preview.` is left as it is. */
  lemma ShortLabelUnchanged(first: string, rest: string)
    requires '.' !in first && |first| < 8
    requires !HasPrefix(first + "." + rest, "preview.")
    ensures RemovePreviewFromHost(first + "." + rest) == first + "." + rest
  {
    SplitFirstAt(first, rest, '.');
  }

  /** A host carrying neither marker, no leading `preview.` and no first label
      ending in `-preview`, is left as it is. */
  lemma UnmarkedUnchanged(host: string)
    requires !HasPrefix(host, "preview.")
    requires forall app, rest | '.' !in app :: host != app + "-preview." + rest
    ensures RemovePreviewFromHost(host) == host
  {
    var parts := SplitFirst(host, '.');
    if |parts| == 2 && HasSuffix(parts[0], "-preview") {
      MarkedLabelShape(host);
      assert false;
    }
  }

  /** A host whose first label ends in `-preview` is `app-preview.rest` for a dot-free `app`. */
  lemma MarkedLabelShape(host: string)
    requires |SplitFirst(host, '.')| == 2 && HasSuffix(SplitFirst(host, '.')[0], "-preview")
    ensures var parts := SplitFirst(host, '.');
            var app := TrimSuffix(parts[0], "-preview");
            '.' !in app && host == app + "-preview." + parts[1]
  {
    var parts := SplitFirst(host, '.');
    var app := TrimSuffix(parts[0], "-preview");
    assert '.' !in app by {
      assert forall k | 0 <= k < |app| :: app[k] == parts[0][k];
    }
    assert host == app + "-preview" + "." + parts[1];
  }

  lemma PreviewExamplesPrefix()
    ensures RemovePreviewFromHost("preview.foo.com") == "foo.com"
    ensures RemovePreviewFromHost("preview.preview.foo.com") == "preview.foo.com"
  {
    PreviewPrefixRemoved("foo.com");
    assert "preview." + "foo.com" == "preview.foo.com";
    PreviewPrefixRemoved("preview.foo.com");
    assert "preview." + "preview.foo.com" == "preview.preview.foo.com";
  }

  lemma PreviewExampleLabel()
    ensures RemovePreviewFromHost("acme-preview.short.link") == "acme.short.link"
  {
    assert "acme" + "-preview." == "acme-preview.";
    assert "acme-preview." + "short.link" == "acme-preview.short.link";
    assert "acme" + "." == "acme.";
    assert "acme." + "short.link" == "acme.short.link";
    PreviewLabelRemoved("acme", "short.link");
  }

  lemma PreviewExampleUnmarked()
    ensures RemovePreviewFromHost("foo.com") == "foo.com"
  {
    assert "foo" + "." + "com" == "foo.com";
    assert !HasPrefix("foo.com", "preview.") by { assert "foo.com"[0] != "preview."[0]; }
    ShortLabelUnchanged("foo", "com");
  }

  /** A `preview.` host resolves exactly as its production host does. */
  lemma PreviewPrefixResolvesLikeProduction(cfg: Config, links: Links, outage: Option<string>, host: string, path: string, q: seq<QueryParam>)
    requires RemovePreviewFromHost(host) == host
    ensures ResolveParsed(cfg, links, outage, Url("preview." + host, path, q))
            == ResolveParsed(cfg, links, outage, Url(host, path, q))
  {
    PreviewPrefixRemoved(host);
  }

  /** A record stored under a `preview.` host itself is never reached: resolution
      looks under the production host, and finds nothing there. */
  lemma PreviewHostRecordUnreachable(cfg: Config, links: Links, host: string, path: string, q: seq<QueryParam>)
    requires LinkKey("preview." + host, path) in links
    requires LinkKey(host, path) !in links
    requires '/' !in path
    ensures ResolveParsed(cfg, links, None, Url("preview." + host, "/" + path, q)) == Failure(Repository(NotFound))
  {
    SingleSegmentLookedUp(cfg, links, None, "preview." + host, path, q);
    PreviewPrefixRemoved(host);
  }

  /** An `app-preview.` host resolves exactly as `app.` does, when `app.rest` has no preview marker. */
  lemma PreviewLabelResolvesLikeProduction(cfg: Config, links: Links, outage: Option<string>, app: string, rest: string, path: string, q: seq<QueryParam>)
    requires '.' !in app
    requires RemovePreviewFromHost(app + "." + rest) == app + "." + rest
    ensures ResolveParsed(cfg, links, outage, Url(app + "-preview." + rest, path, q))
            == ResolveParsed(cfg, links, outage, Url(app + "." + rest, path, q))
  {
    PreviewLabelRemoved(app, rest);
  }

  /** A path made only of slashes, the empty path included, is not rejected: it
      is looked up as the empty segment. */
  lemma EmptyPathLookedUp(cfg: Config, links: Links, outage: Option<string>, u: Url)
    requires AllChar(u.path, '/')
    ensures ResolveParsed(cfg, links, outage, u)
            == LongLinkFromHostAndPath(cfg, links, outage, RemovePreviewFromHost(u.host), "")
  {
    assert u.path == u.path + "" + "";
    TrimWrapped(u.path, "", "", '/');
  }

  /** A requested path with two non-empty segments is rejected. */
  lemma TwoSegmentsRejected(cfg: Config, links: Links, outage: Option<string>, host: string, a: string, b: string, q: seq<QueryParam>)
    requires a != "" && b != "" && '/' !in a && '/' !in b
    ensures ResolveParsed(cfg, links, outage, Url(host, "/" + a + "/" + b, q)) == Failure(InvalidPathFormat)
  {
    var t := a + "/" + b;
    assert t[0] == a[0] && t[|t| - 1] == b[|b| - 1];
    assert "/" + a + "/" + b == "/" + t + "";
    TrimWrapped("/", t, "", '/');
    assert t[|a|] == '/';
  }

  // ---------------------------------------------------------------------------
  // Warnings

  // The messages the examples below produce, spelled out.

  lemma MessageAtIsi()
    ensures Render(NotNeeded(At, Isi)).message == "Param 'at' is not needed, since 'isi' is not specified."
  {
    assert "Param '" + "at" == "Param 'at";
    assert "Param 'at" + "' is not needed, since '" == "Param 'at' is not needed, since '";
    assert "Param 'at' is not needed, since '" + "isi" == "Param 'at' is not needed, since 'isi";
    assert "Param 'at' is not needed, since 'isi" + "' is not specified."
           == "Param 'at' is not needed, since 'isi' is not specified.";
  }

  lemma MessageAtPt()
    ensures Render(NotNeeded(At, Pt)).message == "Param 'at' is not needed, since 'pt' is not specified."
  {
    assert "Param '" + "at" == "Param 'at";
    assert "Param 'at" + "' is not needed, since '" == "Param 'at' is not needed, since '";
    assert "Param 'at' is not needed, since '" + "pt" == "Param 'at' is not needed, since 'pt";
    assert "Param 'at' is not needed, since 'pt" + "' is not specified."
           == "Param 'at' is not needed, since 'pt' is not specified.";
  }

  lemma MessagePtIsi()
    ensures Render(NotNeeded(Pt, Isi)).message == "Param 'pt' is not needed, since 'isi' is not specified."
  {
    assert "Param '" + "pt" == "Param 'pt";
    assert "Param 'pt" + "' is not needed, since '" == "Param 'pt' is not needed, since '";
    assert "Param 'pt' is not needed, since '" + "isi" == "Param 'pt' is not needed, since 'isi";
    assert "Param 'pt' is not needed, since 'isi" + "' is not specified."
           == "Param 'pt' is not needed, since 'isi' is not specified.";
  }

  /** With `isi` and `pt` both empty, `at` is warned about twice, once for each. */
  lemma AtWarnedTwice(info: DurableLinkInfo, isUrl: string -> bool)
    requires info.ios.appStoreId == "" && info.analytics.itunesConnect.pt == ""
    requires info.analytics.itunesConnect.at != ""
    requires info.analytics.itunesConnect.ct == "" && info.analytics.itunesConnect.mt == ""
    requires info.social.imageLink == "" || isUrl(info.social.imageLink)
    ensures CreationWarnings(info, isUrl)
            == [Warning("UNRECOGNIZED_PARAM", "Param 'at' is not needed, since 'isi' is not specified."),
                Warning("UNRECOGNIZED_PARAM", "Param 'at' is not needed, since 'pt' is not specified.")]
  {
    assert CreationWarningCauses(info, isUrl) == [NotNeeded(At, Isi), NotNeeded(At, Pt)];
    MessageAtIsi();
    MessageAtPt();
  }

  /** With `pt` set but `isi` empty, `at` is warned about once, and `pt` itself once. */
  lemma AtWarnedOnceWhenPtSet(info: DurableLinkInfo, isUrl: string -> bool)
    requires info.ios.appStoreId == "" && info.analytics.itunesConnect.pt != ""
    requires info.analytics.itunesConnect.at != ""
    requires info.analytics.itunesConnect.ct == "" && info.analytics.itunesConnect.mt == ""
    requires info.social.imageLink == "" || isUrl(info.social.imageLink)
    ensures CreationWarnings(info, isUrl)
            == [Warning("UNRECOGNIZED_PARAM", "Param 'at' is not needed, since 'isi' is not specified."),
                Warning("UNRECOGNIZED_PARAM", "Param 'pt' is not needed, since 'isi' is not specified.")]
  {
    assert CreationWarningCauses(info, isUrl) == [NotNeeded(At, Isi), NotNeeded(Pt, Isi)];
    MessageAtIsi();
    MessagePtIsi();
  }

  // ---------------------------------------------------------------------------
  // Request preparation

  /** A prepared request, sent again as a structured body, is accepted unchanged. */
  lemma PreparedRequestIsFixpoint(cfg: Config, ext: Externals, body: RequestBody)
    requires PrepareDurableLinkRequest(cfg, ext, body).Success?
    ensures var req := PrepareDurableLinkRequest(cfg, ext, body).value;
            PrepareDurableLinkRequest(cfg, ext, RequestBody(None, Some(req))) == Success(req)
  {
  }
}

=== FILE: query.dfy ===
/** Query parameters as Go's `url.Values` holds them: every `Add` appends a
    (key, value) pair, `Get` returns the first value stored under a key, and
    `Encode` writes the pairs sorted by key. Percent-escaping is left to an
    escaping function supplied by the caller. */
module Query {
  import opened Strings

  datatype QueryParam = QueryParam(key: string, value: string)

  /** url.Values.Get: the first value stored under `key`, or "" when there is none. */
  function Get(q: seq<QueryParam>, key: string): (v: string)
    ensures v != "" ==> QueryParam(key, v) in q
    ensures (forall p | p in q :: p.key != key) ==> v == ""
    ensures forall i | FirstWithKey(q, key, i) :: v == q[i].value
  {
    if |q| == 0 then ""
    else if q[0].key == key then q[0].value
    else
      assert forall i | FirstWithKey(q, key, i) :: FirstWithKey(q[1..], key, i - 1);
      Get(q[1..], key)
  }

  /** Position `i` holds the first pair of `q` with this key. */
  ghost predicate FirstWithKey(q: seq<QueryParam>, key: string, i: int)
  {
    && 0 <= i < |q|
    && q[i].key == key
    && forall j | 0 <= j < i :: q[j].key != key
  }

  /** No two positions share a key: every key is added once. */
  predicate UniqueKeys(q: seq<QueryParam>)
  {
    forall i, j | 0 <= i < j < |q| :: q[i].key != q[j].key
  }

  /** A pair whose key the rest does not use keeps the keys unique. */
  lemma UniqueKeysCons(p: QueryParam, rest: seq<QueryParam>)
    requires UniqueKeys(rest)
    requires forall x | x in rest :: x.key != p.key
    ensures UniqueKeys([p] + rest)
  {
    var r := [p] + rest;
    forall i, j | 0 <= i < j < |r| ensures r[i].key != r[j].key {
      assert r[j] == rest[j - 1];
      if i > 0 {
        assert r[i] == rest[i - 1];
      } else {
        assert rest[j - 1] in rest;
      }
    }
  }

  /** No two different pairs share a key (the same pair may repeat). */
  ghost predicate KeyFunctional(q: seq<QueryParam>)
  {
    forall x, y | x in q && y in q && x.key == y.key :: x == y
  }

  /** Keys appear in non-decreasing byte order. */
  ghost predicate KeysSorted(q: seq<QueryParam>)
  {
    forall i, j | 0 <= i < j < |q| :: LexLeq(q[i].key, q[j].key)
  }

  /** When keys determine pairs, `Get` finds the pair stored under a key. */
  lemma {:induction false} GetFunctional(q: seq<QueryParam>, p: QueryParam)
    requires KeyFunctional(q) && p in q
    ensures Get(q, p.key) == p.value
  {
    if q[0].key != p.key {
      assert p in q[1..];
      GetFunctional(q[1..], p);
    }
  }

  /** Reordering pairs whose keys determine them does not change any `Get`. */
  lemma GetPermutation(q1: seq<QueryParam>, q2: seq<QueryParam>, key: string)
    requires KeyFunctional(q1) && multiset(q1) == multiset(q2)
    ensures Get(q1, key) == Get(q2, key)
  {
    assert forall p :: p in q1 <==> p in q2 by {
      forall p ensures p in q1 <==> p in q2 {
        assert p in q1 <==> p in multiset(q1);
        assert p in q2 <==> p in multiset(q2);
      }
    }
    if p :| p in q1 && p.key == key {
      GetFunctional(q1, p);
      GetFunctional(q2, p);
    }
  }

  /** A pair whose key is not above the first key of a sorted sequence can go in front. */
  lemma PrependSorted(p: QueryParam, s: seq<QueryParam>)
    requires KeysSorted(s) && |s| > 0 && LexLeq(p.key, s[0].key)
    ensures KeysSorted([p] + s)
  {
    var r := [p] + s;
    forall i, j | 0 <= i < j < |r| ensures LexLeq(r[i].key, r[j].key) {
      if i == 0 && j > 1 {
        LexLeqTransitive(p.key, s[0].key, s[j - 1].key);
      }
    }
  }

  /** A pair whose key is not above any key of a sorted sequence can go in front. */
  lemma ConsSorted(h: QueryParam, t: seq<QueryParam>)
    requires KeysSorted(t)
    requires forall x | x in t :: LexLeq(h.key, x.key)
    ensures KeysSorted([h] + t)
  {
    var r := [h] + t;
    forall i, j | 0 <= i < j < |r| ensures LexLeq(r[i].key, r[j].key) {
      assert r[j] == t[j - 1];
      if i == 0 {
        assert t[j - 1] in t;
      } else {
        assert r[i] == t[i - 1];
      }
    }
  }

  /** Every pair of a rearrangement of `s[1..]` plus a pair `p` that sorts after
      `s[0]` has a key at least `s[0]`'s. */
  lemma HeadBoundsInserted(p: QueryParam, s: seq<QueryParam>, tail: seq<QueryParam>)
    requires KeysSorted(s) && |s| > 0 && !LexLeq(p.key, s[0].key)
    requires multiset(tail) == multiset(s[1..]) + multiset{p}
    ensures forall x | x in tail :: LexLeq(s[0].key, x.key)
  {
    forall x | x in tail ensures LexLeq(s[0].key, x.key) {
      assert x in multiset(tail);
      if x == p {
        LexLeqTotal(p.key, s[0].key);
      } else {
        assert x in multiset(s[1..]);
        var k :| 0 <= k < |s[1..]| && s[1..][k] == x;
        assert s[k + 1] == x;
      }
    }
  }

  /** Inserts `p` before the first pair whose key is not smaller. The order of
      pairs with equal keys is not part of the contract: the queries the
      service builds never repeat a key (`UniqueKeys`). */
  function Insert(p: QueryParam, s: seq<QueryParam>): (r: seq<QueryParam>)
    requires KeysSorted(s)
    ensures KeysSorted(r)
    ensures multiset(r) == multiset(s) + multiset{p}
  {
    if |s| == 0 then [p]
    else if LexLeq(p.key, s[0].key) then
      PrependSorted(p, s);
      [p] + s
    else
      var tail := Insert(p, s[1..]);
      assert s == [s[0]] + s[1..];
      HeadBoundsInserted(p, s, tail);
      ConsSorted(s[0], tail);
      [s[0]] + tail
  }

  /** Stable insertion sort of the pairs by key: the order `Encode` writes them in. */
  function SortByKey(q: seq<QueryParam>): (r: seq<QueryParam>)
    ensures KeysSorted(r)
    ensures multiset(r) == multiset(q)
  {
    if |q| == 0 then []
    else
      assert q == [q[0]] + q[1..];
      Insert(q[0], SortByKey(q[1..]))
  }

  /** The first pairs of two key-sorted arrangements of the same pairs coincide
      when keys determine pairs. */
  lemma SortedHeadsAgree(a: seq<QueryParam>, b: seq<QueryParam>)
    requires KeysSorted(a) && KeysSorted(b)
    requires multiset(a) == multiset(b) && |a| > 0 && |b| > 0
    requires KeyFunctional(a)
    ensures a[0] == b[0]
  {
    assert a[0] in multiset(b) && b[0] in multiset(a);
    var j :| 0 <= j < |b| && b[j] == a[0];
    var i :| 0 <= i < |a| && a[i] == b[0];
    if a[0] != b[0] {
      assert i > 0 && j > 0;
      assert LexLeq(b[0].key, b[j].key) && LexLeq(a[0].key, a[i].key);
      LexLeqAntisymmetric(a[0].key, b[0].key);
    }
  }

  /** Two key-sorted arrangements of the same pairs, where keys determine pairs, are identical. */
  lemma {:induction false} SortedUnique(a: seq<QueryParam>, b: seq<QueryParam>)
    requires KeysSorted(a) && KeysSorted(b)
    requires multiset(a) == multiset(b)
    requires KeyFunctional(a)
    ensures a == b
    decreases |a|
  {
    assert |a| == |multiset(a)| && |b| == |multiset(b)|;
    if |a| > 0 {
      SortedHeadsAgree(a, b);
      assert a == [a[0]] + a[1..];
      assert b == [b[0]] + b[1..];
      assert multiset(a[1..]) == multiset(a) - multiset{a[0]};
      assert multiset(b[1..]) == multiset(b) - multiset{b[0]};
      assert multiset(a[1..]) == multiset(b[1..]);
      assert KeysSorted(a[1..]) && KeysSorted(b[1..]);
      SortedUnique(a[1..], b[1..]);
    }
  }

  /** One `key=value` item of an encoded query, both sides escaped. */
  function EncodeItem(p: QueryParam, escape: string -> string): string
  {
    escape(p.key) + "=" + escape(p.value)
  }

  /** The items of `q`, in order, separated by `&`. */
  function JoinItems(q: seq<QueryParam>, escape: string -> string): string
  {
    if |q| == 0 then ""
    else if |q| == 1 then EncodeItem(q[0], escape)
    else EncodeItem(q[0], escape) + "&" + JoinItems(q[1..], escape)
  }

  /** url.Values.Encode: the pairs sorted by key, as `k=v` items joined by `&`. */
  function Encode(q: seq<QueryParam>, escape: string -> string): string
  {
    JoinItems(SortByKey(q), escape)
  }

  /** The canonical encoding depends only on which pairs are present, not on the
      order they were added in, as long as no key carries two different values. */
  lemma EncodeCanonical(q1: seq<QueryParam>, q2: seq<QueryParam>, escape: string -> string)
    requires KeyFunctional(q1)
    requires multiset(q1) == multiset(q2)
    ensures Encode(q1, escape) == Encode(q2, escape)
  {
    var s1, s2 := SortByKey(q1), SortByKey(q2);
    assert forall x | x in s1 :: x in q1 by {
      forall x | x in s1 ensures x in q1 {
        assert x in multiset(s1);
      }
    }
    SortedUnique(s1, s2);
  }

  /** Reading a parameter back from the encoded (sorted) order gives what was added. */
  lemma GetSorted(q: seq<QueryParam>, key: string)
    requires KeyFunctional(q)
    ensures Get(SortByKey(q), key) == Get(q, key)
  {
    GetPermutation(q, SortByKey(q), key);
  }
}

=== FILE: store.dfy ===
/** The link repository: a table of short links keyed by (host, path), each
    holding the encoded query string and whether the path was minted unguessable.
    Database faults are an explicit input (`outage`); the query that looks for a
    reusable path is an oracle constrained only by what it may answer. */
module Store {
  import opened Wrappers

  datatype LinkKey = LinkKey(host: string, path: string)

  datatype LinkRecord = LinkRecord(rawQuery: string, unguessable: bool)

  type Links = map<LinkKey, LinkRecord>

  datatype StoreError =
    | NotFound                  // sql.ErrNoRows
    | DuplicatePath             // (host, path) is already taken
    | DbError(message: string)  // any other database failure

  /** GetQueryParamsByHostAndPath: the stored query string of (host, path). */
  function Lookup(links: Links, host: string, path: string, outage: Option<string>): (r: Result<string, StoreError>)
    ensures r.Success? <==> outage.None? && LinkKey(host, path) in links
    ensures r.Success? ==> r.value == links[LinkKey(host, path)].rawQuery
    ensures outage.None? && LinkKey(host, path) !in links ==> r == Failure(NotFound)
  {
    if outage.Some? then Failure(DbError(outage.value))
    else if LinkKey(host, path) in links then Success(links[LinkKey(host, path)].rawQuery)
    else Failure(NotFound)
  }

  /** CreateShortLink: adds one record; (host, path) must be free. */
  function Put(links: Links, key: LinkKey, rec: LinkRecord, outage: Option<string>): (r: Result<Links, StoreError>)
    ensures r.Success? <==> outage.None? && key !in links
    ensures r.Success? ==> r.value == links[key := rec]
  {
    if outage.Some? then Failure(DbError(outage.value))
    else if key in links then Failure(DuplicatePath)
    else Success(links[key := rec])
  }

  /** A guessable record of `host` stores exactly `rawQuery` under `path`. */
  predicate ReusableAt(links: Links, host: string, rawQuery: string, path: string)
  {
    LinkKey(host, path) in links && links[LinkKey(host, path)] == LinkRecord(rawQuery, false)
  }

  /** FindExistingShortLink(host, rawQuery) may answer a path only if a guessable
      record of that host stores that query there, and NotFound only if there is
      no such record; any other failure is a database fault. */
  ghost predicate FindAnswerSound(links: Links, host: string, rawQuery: string, answer: Result<string, StoreError>)
  {
    && (answer.Success? ==> ReusableAt(links, host, rawQuery, answer.value))
    && (answer == Failure(NotFound) ==> forall k | k in links && k.host == host :: !ReusableAt(links, host, rawQuery, k.path))
  }

  /** The reuse lookup answers soundly for every (host, query) over `links`. */
  ghost predicate FindSound(links: Links, find: (string, string) -> Result<string, StoreError>)
  {
    forall host, rawQuery :: FindAnswerSound(links, host, rawQuery, find(host, rawQuery))
  }
}

=== FILE: strings.dfy ===
/** The few Go `strings` functions the link service relies on, over `seq<char>`,
    and the byte-wise lexicographic order Go uses to compare strings. */
module Strings {
  import opened Wrappers

  /** Every character of `t` is `c`. */
  predicate AllChar(t: string, c: char)
  {
    forall k :: 0 <= k < |t| ==> t[k] == c
  }

  /** strings.HasPrefix */
  predicate HasPrefix(s: string, prefix: string)
  {
    prefix <= s
  }

  /** strings.TrimPrefix: drops `prefix` once when `s` starts with it. */
  function TrimPrefix(s: string, prefix: string): (r: string)
    ensures HasPrefix(s, prefix) ==> prefix + r == s
    ensures !HasPrefix(s, prefix) ==> r == s
  {
    if HasPrefix(s, prefix) then s[|prefix|..] else s
  }

  /** strings.HasSuffix */
  predicate HasSuffix(s: string, suffix: string)
  {
    |suffix| <= |s| && s[|s| - |suffix|..] == suffix
  }

  /** strings.TrimSuffix: drops `suffix` once when `s` ends with it. */
  function TrimSuffix(s: string, suffix: string): (r: string)
    ensures HasSuffix(s, suffix) ==> r + suffix == s
    ensures !HasSuffix(s, suffix) ==> r == s
  {
    if HasSuffix(s, suffix) then s[..|s| - |suffix|] else s
  }

  /** Position of the first `c` in `s`, if there is one. */
  function IndexOf(s: string, c: char): (r: Option<nat>)
    ensures r.None? <==> c !in s
    ensures r.Some? ==> r.value < |s| && s[r.value] == c && c !in s[..r.value]
  {
    if |s| == 0 then None
    else if s[0] == c then Some(0)
    else
      match IndexOf(s[1..], c)
      case None => None
      case Some(i) =>
        assert s[..i + 1] == [s[0]] + s[1..][..i];
        Some(i + 1)
  }

  /** strings.SplitN(s, c, 2): the text before the first `c` and the text after it,
      or `[s]` when `c` does not occur. */
  function SplitFirst(s: string, c: char): (r: seq<string>)
    ensures 1 <= |r| <= 2
    ensures |r| == 1 <==> c !in s
    ensures |r| == 1 ==> r[0] == s
    ensures |r| == 2 ==> r[0] + [c] + r[1] == s && c !in r[0]
  {
    match IndexOf(s, c)
    case None => [s]
    case Some(i) =>
      assert s[..i] + [c] + s[i + 1..] == s;
      [s[..i], s[i + 1..]]
  }

  /** The first `c` of `a + [c] + b` is the one after `a` when `a` has none. */
  lemma {:induction false} IndexOfFirst(a: string, b: string, c: char)
    requires c !in a
    ensures IndexOf(a + [c] + b, c) == Some(|a|)
    decreases |a|
  {
    var s := a + [c] + b;
    if |a| > 0 {
      assert s[0] == a[0];
      assert s[1..] == a[1..] + [c] + b;
      IndexOfFirst(a[1..], b, c);
    }
  }


  /** A delimiter absent from the head fixes where the head ends: both halves are determined. */
  lemma DelimitedUnique(a1: string, b1: string, a2: string, b2: string, c: char)
    requires c !in a1 && c !in a2
    requires a1 + [c] + b1 == a2 + [c] + b2
    ensures a1 == a2 && b1 == b2
  {
    IndexOfFirst(a1, b1, c);
    IndexOfFirst(a2, b2, c);
    var s := a1 + [c] + b1;
    assert s[..|a1|] == a1 && s[|a1| + 1..] == b1;
    assert s[..|a2|] == a2 && s[|a2| + 1..] == b2;
  }

  /** Splitting at the first `c` recovers the two sides when the left one has no `c`. */
  lemma SplitFirstAt(a: string, b: string, c: char)
    requires c !in a
    ensures SplitFirst(a + [c] + b, c) == [a, b]
  {
    var s := a + [c] + b;
    IndexOfFirst(a, b, c);
    assert s[..|a|] == a;
    assert s[|a| + 1..] == b;
  }

  /** strings.Join(parts, string(c)) */
  function Join(parts: seq<string>, c: char): string
    requires |parts| >= 1
  {
    if |parts| == 1 then parts[0] else parts[0] + [c] + Join(parts[1..], c)
  }

  /** strings.Split(s, string(c)): the maximal `c`-free pieces of `s`, in order;
      there is always at least one, and splitting the empty string yields `[""]`. */
  function Split(s: string, c: char): (r: seq<string>)
    ensures |r| >= 1
    ensures |r| == 1 <==> c !in s
    ensures c !in s ==> r == [s]
    ensures forall i :: 0 <= i < |r| ==> c !in r[i]
    ensures Join(r, c) == s
    decreases |s|
  {
    match IndexOf(s, c)
    case None => [s]
    case Some(i) =>
      var rest := Split(s[i + 1..], c);
      var r := [s[..i]] + rest;
      assert r[1..] == rest;
      assert s[..i] + [c] + s[i + 1..] == s;
      r
  }

  /** The first position from `i` on that does not hold `c` (or `|s|`). */
  function SkipFrom(s: string, c: char, i: nat): (j: nat)
    requires i <= |s|
    ensures i <= j <= |s|
    ensures forall k | i <= k < j :: s[k] == c
    ensures j == |s| || s[j] != c
    decreases |s| - i
  {
    if i < |s| && s[i] == c then SkipFrom(s, c, i + 1) else i
  }

  /** The end of `s[..j]` once its trailing run of `c` is dropped. */
  function SkipBack(s: string, c: char, j: nat): (i: nat)
    requires j <= |s|
    ensures i <= j
    ensures forall k | i <= k < j :: s[k] == c
    ensures i == 0 || s[i - 1] != c
  {
    if j > 0 && s[j - 1] == c then SkipBack(s, c, j - 1) else j
  }

  /** Drops every leading `c`. */
  function TrimLeft(s: string, c: char): (r: string)
    ensures |r| <= |s| && r == s[|s| - |r|..]
    ensures AllChar(s[..|s| - |r|], c)
    ensures |r| == 0 || r[0] != c
  {
    s[SkipFrom(s, c, 0)..]
  }

  /** Drops every trailing `c`. */
  function TrimRight(s: string, c: char): (r: string)
    ensures |r| <= |s| && r == s[..|r|]
    ensures AllChar(s[|r|..], c)
    ensures |r| == 0 || r[|r| - 1] != c
  {
    s[..SkipBack(s, c, |s|)]
  }

  /** strings.Trim(s, string(c)): drops every leading and trailing `c`; what
      remains is the slice of `s` between two runs of `c` and neither starts nor ends with `c`. */
  function Trim(s: string, c: char): (r: string)
    ensures var i := |s| - |TrimLeft(s, c)|;
            i + |r| <= |s| && r == s[i..i + |r|] && AllChar(s[..i], c) && AllChar(s[i + |r|..], c)
    ensures |r| == 0 || (r[0] != c && r[|r| - 1] != c)
  {
    var l := TrimLeft(s, c);
    var r := TrimRight(l, c);
    TrimSlices(s, l, r, c);
    r
  }

  lemma TrimSlices(s: string, l: string, r: string, c: char)
    requires |l| <= |s| && l == s[|s| - |l|..] && AllChar(s[..|s| - |l|], c)
    requires |r| <= |l| && r == l[..|r|] && AllChar(l[|r|..], c)
    requires |l| == 0 || l[0] != c
    requires |r| == 0 || r[|r| - 1] != c
    ensures var i := |s| - |l|;
            i + |r| <= |s| && r == s[i..i + |r|] && AllChar(s[..i], c) && AllChar(s[i + |r|..], c)
    ensures |r| == 0 || (r[0] != c && r[|r| - 1] != c)
  {
    var i := |s| - |l|;
    assert r == s[i..i + |r|];
    assert s[i + |r|..] == l[|r|..];
    assert |r| == 0 || r[0] == l[0];
  }

  lemma TrimLeftAfterRun(pre: string, u: string, c: char)
    requires AllChar(pre, c) && (|u| == 0 || u[0] != c)
    ensures TrimLeft(pre + u, c) == u
  {
    var s := pre + u;
    assert forall k | 0 <= k < |pre| :: s[k] == pre[k];
    assert |u| > 0 ==> s[|pre|] == u[0];
    assert SkipFrom(s, c, 0) == |pre|;
    assert s[|pre|..] == u;
  }

  lemma TrimRightBeforeRun(u: string, post: string, c: char)
    requires AllChar(post, c) && (|u| == 0 || u[|u| - 1] != c)
    ensures TrimRight(u + post, c) == u
  {
    var s := u + post;
    assert forall k | |u| <= k < |s| :: s[k] == post[k - |u|];
    assert |u| > 0 ==> s[|u| - 1] == u[|u| - 1];
    assert SkipBack(s, c, |s|) == |u|;
    assert s[..|u|] == u;
  }

  /** Trimming `c` from a text that neither starts nor ends with `c`, wrapped in
      runs of `c`, gives back that text. */
  lemma TrimWrapped(pre: string, t: string, post: string, c: char)
    requires AllChar(pre, c) && AllChar(post, c)
    requires |t| == 0 || (t[0] != c && t[|t| - 1] != c)
    ensures Trim(pre + t + post, c) == t
  {
    if |t| == 0 {
      assert pre + t + post == (pre + post) + t;
      assert AllChar(pre + post, c);
      TrimLeftAfterRun(pre + post, t, c);
      assert TrimRight(t, c) == t;
    } else {
      assert pre + t + post == pre + (t + post);
      TrimLeftAfterRun(pre, t + post, c);
      TrimRightBeforeRun(t, post, c);
    }
  }

  /** Byte-wise lexicographic order on strings (Go's `<=` on strings, since
      code-point order and UTF-8 byte order agree). */
  predicate LexLeq(a: string, b: string)
    decreases |a|
  {
    |a| == 0 || (|b| > 0 && (a[0] < b[0] || (a[0] == b[0] && LexLeq(a[1..], b[1..]))))
  }

  lemma {:induction false} LexLeqTotal(a: string, b: string)
    ensures LexLeq(a, b) || LexLeq(b, a)
    decreases |a|
  {
    if |a| > 0 && |b| > 0 && a[0] == b[0] {
      LexLeqTotal(a[1..], b[1..]);
    }
  }

  lemma {:induction false} LexLeqAntisymmetric(a: string, b: string)
    requires LexLeq(a, b) && LexLeq(b, a)
    ensures a == b
    decreases |a|
  {
    if |a| > 0 {
      LexLeqAntisymmetric(a[1..], b[1..]);
      assert a == [a[0]] + a[1..];
      assert b == [b[0]] + b[1..];
    }
  }

  lemma {:induction false} LexLeqTransitive(a: string, b: string, c: string)
    requires LexLeq(a, b) && LexLeq(b, c)
    ensures LexLeq(a, c)
    decreases |a|
  {
    if |a| > 0 && a[0] == b[0] && b[0] == c[0] {
      LexLeqTransitive(a[1..], b[1..], c[1..]);
    }
  }
}

=== FILE: wrappers.dfy ===
/** Failure-carrying datatypes used throughout the model: an optional value
    (a Go `*T` that may be nil) and a value-or-error result (a Go `(T, error)` pair). */
module Wrappers {

  datatype Option<+T> = None | Some(value: T) {

    /** The carried value, or `default` when there is none (dereferencing a `*T` with a fallback). */
    function GetOr(default: T): T
    {
      match this
      case Some(v) => v
      case None => default
    }
  }

  datatype Result<+R, +E> = Success(value: R) | Failure(error: E)
}
